=== FILE: README.md ===
# camy — a Dafny model of the recording core

camy is an Android camera app. It takes photos itself. It hands the camera
to a foreground service, `CameraService`, to record video in chunks of at
most 4 GiB. This project models the decision logic of that app as pure
Dafny functions and proves properties of it:

- **CameraService** (`camera_service.dfy`): a transition function
  `Step(state, event) -> Transition(next, effects)`.
  - The state holds `isRecording`, `pendingSplit`, `chunkIndex`, whether an
    active recording, a VideoCapture or a CameraControl exists, `isFlashOn`
    the pending rotation and the rotation START captured for its bind.
  - The events are the four intent actions, the camera bind (success or
    failure), the recorder's Start/Status/Finalize events, `onDestroy` and
    `onTaskRemoved`.
  - The effects are the platform calls, in order: bind request, unbindAll,
    chunk started (with its ContentValues and the audio flag) or refused,
    stop requested, torch, stopSelf, the SERVICE_STOPPED broadcast and the
    releases.
  - `Run` folds `Step` over a sequence of events.
  - All callbacks run on the main executor, so a sequential trace is exact.
- **Properties of the service** (`camera_service_properties.dfy`): chunk
  numbering over whole runs, the 4 GiB split, stop-beats-split, the
  `isRecording` discipline, torch and rotation.
- **Whole sessions** (`camera_service_scenarios.dfy`): open, record, split and
  close, with counts of chunks, stop requests and broadcasts.
- **MainActivity** (`main_activity.dfy`):
  - the three buttons as a UI-mode machine over `isPhotoMode`/`isRecording`/`isFlashOn`;
  - orientation bucketing and what the service makes of it;
  - the permission list and permission decisions;
  - the service-stopped receiver.
  - Over any run of presses, the START/STOP commands strictly alternate.
- **SettingsDialogFragment** (`settings_dialog.dfy`):
  - the spinner position ↔ storage choice mapping;
  - the save decision table and the folder-picker result;
  - load/save round trips, and the link from saved settings to the next chunk the service starts.
- **Utilities**:
  - `createMediaContentValues`, `copyStream` and `getOrCreateDefaultFolder` (`media_utils.dfy`);
  - SD-card volume selection (`media_store_volumes.dfy`);
  - `dd_MM_yyyy` formatting (`date_utils.dfy`), with its parser as the partner for the round trip.

Shared modules:

- `Optional`: Option with a default.
- `Decimal`: decimal digits, zero padding, parsing and `Split` on a separator.
- `Android`: SDK level Q = 29, surface rotations, permission and column names, `ContentValues` as `map<string, string>`.
- `AppPrefs`: the "MyAppPrefs" keys and their defaults.

The clock, the date, the SDK level, the stored preferences and the
outcome of platform calls are parameters: bind success, SecurityException,
createDirectory success and the picker result.

### Behaviour worth knowing

- The split decision reads the recorder's cumulative `numBytesRecorded` for the current chunk on every Status event (`CameraService.kt:179-181`, `:213-220`), and `pendingSplit` makes it fire at most once per chunk.
- START records the pending rotation as the rotation its bind listener will apply (`CameraService.kt:93`, `:130`). A ROTATION command that arrives before the bind completes does not change it. The model keeps that value in the state field `bindRotation`.
- Chunks always go to the Video collection of `VOLUME_EXTERNAL_PRIMARY` (`CameraService.kt:159`). An SD card that `MediaStoreVolumes` would select never receives video chunks, so the `StartChunk` effect carries only the ContentValues and the audio flag.
- `chunkIndex` is post-incremented when the name is built (`CameraService.kt:146`). After the first chunk of a session it is 1 while the name says 0. `SessionChunkNumbers` and `OpenSession` state this.
- `isRecording` becomes true only on the recorder's Start event. A STOP that arrives earlier requests no pipeline stop, but still calls stopSelf (`EarlyStopLeavesRecordingActive`).
- `onDestroy` sends the SERVICE_STOPPED broadcast unconditionally, whatever the recording state.
- A failed bind leaves the new VideoCapture in place. `startRecordingVideo` runs only on a successful bind.
- The activity's own photo path is `Pictures/CameraX-Photos` (`MainActivity.kt:254`). It is not the `Pictures/Camy-Pictures` that `createMediaContentValues` uses.

`totalBytes` in `copyStream` is a Kotlin `Int`. The model wraps it to 32 bits. It only reaches a log line, and `CopyStreamTotalExact` shows that it is exact below 2 GiB.

## Model

Source paths are relative to the repository root; `CameraService.kt`, `MainActivity.kt` and `SettingsDialogFragment.kt` live in `app/src/main/java/com/example/camy/`, the utilities in its `utils/` sub-directory.

| member | source | states |
|---|---|---|
| CameraService.CommandOf | app/src/main/java/com/example/camy/CameraService.kt:74-106 | exactly the four known actions are dispatched, any other or a missing action does nothing, the dispatched command carries the intent's own action, and a rotation intent carries its VIDEO_ROTATION extra, or ROTATION_0 when the extra is missing |
| CameraService.IntentFor | app/src/main/java/com/example/camy/MainActivity.kt:69-71 | every command intent names its action, and only the rotation command carries the VIDEO_ROTATION extra, holding the rotation sent |
| CameraService.CommandOfIntentFor | app/src/main/java/com/example/camy/CameraService.kt:49-53 | every command the activity can send is read back by the service as that same command (rotation extra included) |
| CameraService.ChunkNumberOfName | app/src/main/java/com/example/camy/CameraService.kt:146 | the chunk index written into a chunk's file name is recovered from its third '_' field, whatever the timestamp and date text |
| CameraService.VideoChunkName | app/src/main/java/com/example/camy/CameraService.kt:146 | a chunk name starts with "video_chunk_" and ends with ".mp4" |
| CameraService.ChunkNamesDistinct | app/src/main/java/com/example/camy/CameraService.kt:146 | two chunks with different indices never get the same file name, whatever their timestamps and dates |
| CameraService.ChunkNameCarriesTimestamp | app/src/main/java/com/example/camy/CameraService.kt:146 | the fourth '_' field of a chunk name is the timestamp's digits and parses back to it |
| CameraService.ChunkNameIdentifiesChunk | app/src/main/java/com/example/camy/CameraService.kt:146 | two chunk names are equal iff index, timestamp and date text are equal |
| CameraService.ChunkContentValues | app/src/main/java/com/example/camy/CameraService.kt:148-158 | name and MIME type always present; RELATIVE_PATH present iff SDK >= Q; the path is the "-Ext" folder iff the stored choice is "external", else Movies/Camy-Videos; no other key |
| CameraService.StartRecordingVideo | app/src/main/java/com/example/camy/CameraService.kt:140-202 | chunkIndex goes up by exactly one and nothing else but the active-recording flag changes; a chunk starts iff a VideoCapture exists and no SecurityException is thrown, then with the stored audio setting and the content values for the pre-increment index; a SecurityException leaves the previous recording reference as it was |
| CameraService.StopRecordingVideo | app/src/main/java/com/example/camy/CameraService.kt:204-211 | when not recording nothing changes; when recording it clears isRecording, pendingSplit and the recording reference, and asks the pipeline to stop exactly when a recording reference existed |
| CameraService.CheckFileSize | app/src/main/java/com/example/camy/CameraService.kt:213-220 | below 4 GiB or with a split pending nothing happens; at 4 GiB the split becomes pending, the recording reference is dropped, one stop is requested if there was a reference, and every other field is untouched |
| CameraService.OnFinalize | app/src/main/java/com/example/camy/CameraService.kt:184-194 | afterwards neither recording nor split pending; without a pending split only isRecording changes; with one, exactly one chunk attempt follows and chunkIndex moves on by one |
| CameraService.ToggleTorch | app/src/main/java/com/example/camy/CameraService.kt:242-250 | without a CameraControl nothing changes; with one the torch flag flips, the torch is set to the new value and no other field changes |
| CameraService.RemapRotation | app/src/main/java/com/example/camy/CameraService.kt:77-84 | always a surface rotation; an unknown value becomes ROTATION_0; a quarter turn maps to its mirror (r + remap(r) is 0 mod 4) |
| CameraService.RemapRotationInvolution | app/src/main/java/com/example/camy/CameraService.kt:77-84 | remapping twice gives back any surface rotation |
| CameraService.OnCommand | app/src/main/java/com/example/camy/CameraService.kt:74-106 | START while recording is ignored; otherwise it resets chunkIndex to 0 and pendingSplit to false and requests a bind with the pending rotation; STOP is the stop sequence; a rotation changes only the two rotation fields and emits nothing |
| CameraService.StopService | app/src/main/java/com/example/camy/CameraService.kt:96-101 | the effects are exactly the pipeline stop, requested iff recording with a live recording reference, followed by one stopSelf; afterwards not recording; when idle it is stopSelf alone |
| CameraService.OnDestroy | app/src/main/java/com/example/camy/CameraService.kt:252-265 | the lifecycle goes to DESTROYED first; between it and the broadcast there is exactly the pipeline stop, present iff recording with a live recording reference; the broadcast, wake-lock release and executor shutdown come last, in that order; the broadcast goes out exactly once, whatever the state; the state ends as stopRecordingVideo leaves it |
| CameraService.BindListener | app/src/main/java/com/example/camy/CameraService.kt:111-138 | the bind listener's success path, for every state: it unbinds first, applies the rotation START captured, holds a CameraControl, then makes exactly startRecordingVideo's calls and ends in its state, with chunkIndex one higher |
| CameraService.BindListenerFailure | app/src/main/java/com/example/camy/CameraService.kt:126-136 | when binding throws, the listener has only unbound: the new capture keeps the platform's default rotation and nothing else changes |
| CameraServiceProperties.RunAppend | app/src/main/java/com/example/camy/CameraService.kt:137 | every callback runs on the main executor, so handling one trace and then another is handling their concatenation: the state threads through and the effects are joined in order |
| CameraServiceProperties.StepChunkNumbers | app/src/main/java/com/example/camy/CameraService.kt:146 | every single event's chunk attempts are numbered consecutively from the current (or, after START, reset) chunkIndex up to the new one |
| CameraServiceProperties.RunChunkNumbers | app/src/main/java/com/example/camy/CameraService.kt:140-202 | over any trace without START, chunks are numbered chunkIndex, chunkIndex+1, ... with no gap or repeat, and chunkIndex ends one past the last |
| CameraServiceProperties.SessionChunkNumbers | app/src/main/java/com/example/camy/CameraService.kt:89-95 | a session opened by START numbers its chunks 0, 1, 2, ... and chunkIndex ends equal to the number of chunks attempted |
| CameraServiceProperties.StatusRunSplitsOnce | app/src/main/java/com/example/camy/CameraService.kt:213-220 | over any run of Status events at most one stop is requested, exactly when no split was pending, a recording was live and some status reached 4 GiB; the split is pending afterwards iff it was or the limit was reached |
| CameraServiceProperties.StatusWhilePendingIsIgnored | app/src/main/java/com/example/camy/CameraService.kt:214 | while a split is pending, any run of Status events changes nothing and requests nothing |
| CameraServiceProperties.SplitRollsOver | app/src/main/java/com/example/camy/CameraService.kt:184-193 | a 4 GiB status followed by its Finalize requests one stop if a recording was live and then starts exactly one chunk, named with the current chunkIndex, with the stored audio and folder settings; chunkIndex moves on by one and no split is left pending |
| CameraServiceProperties.StopSupersedesSplit | app/src/main/java/com/example/camy/CameraService.kt:204-211 | STOP during a pending split requests no second pipeline stop, stopSelf is still called, and the Finalize that follows starts no chunk: chunkIndex is unchanged and nothing is recording or pending |
| CameraServiceProperties.StopThenFinalizeEndsSession | app/src/main/java/com/example/camy/CameraService.kt:96-101 | STOP while recording and its Finalize: one stop request if a recording was live, stopSelf last, no chunk started, neither recording nor split pending |
| CameraServiceProperties.RecordingNeedsStartEvent | app/src/main/java/com/example/camy/CameraService.kt:171-172 | from a non-recording state, no trace without the recorder's Start event makes the service recording |
| CameraServiceProperties.NotRecordingAfterFinalize | app/src/main/java/com/example/camy/CameraService.kt:184-187 | after a Finalize, isRecording stays false until the next Start event |
| CameraServiceProperties.TaskRemovedActsAsStop | app/src/main/java/com/example/camy/CameraService.kt:267-271 | swiping the app away from recents behaves exactly as a STOP command: stopSelf last, not recording afterwards |
| CameraServiceProperties.ToggleTwiceRestores | app/src/main/java/com/example/camy/CameraService.kt:242-250 | two torch toggles restore the whole service state, with or without a CameraControl |
| CameraServiceProperties.RotationLeavesRecordingAlone | app/src/main/java/com/example/camy/CameraService.kt:75-88 | a rotation change emits nothing, sets the pending rotation to the remapped value, retargets an existing VideoCapture only, and leaves every recording field alone |
| CameraServiceProperties.RotationWithoutExtraIsRotation0 | app/src/main/java/com/example/camy/CameraService.kt:76-86 | in any state, a rotation intent without the VIDEO_ROTATION extra sets the pending rotation to ROTATION_0, emits nothing and changes only the rotation fields |
| CameraServiceScenarios.QuietStatusRun | app/src/main/java/com/example/camy/CameraService.kt:213-214 | Status events all below 4 GiB change nothing and request nothing |
| CameraServiceScenarios.OpenSession | app/src/main/java/com/example/camy/CameraService.kt:89-138 | START, a successful bind and the recorder's Start event from an idle service: the bind is requested with the pending rotation START saw and the capture ends on that rotation; recording, chunk 0 is the only chunk attempted, chunkIndex is 1, no stop and no broadcast |
| CameraServiceScenarios.FreshServiceOpens | app/src/main/java/com/example/camy/CameraService.kt:30-46 | a service just created, with its field initialisers, binds its first session at ROTATION_0, keeps the torch off and numbers its first chunk 0 |
| CameraServiceScenarios.EarlyStopLeavesRecordingActive | app/src/main/java/com/example/camy/CameraService.kt:96-101 | START, bind, then STOP before the Start event: no pipeline stop is requested, stopSelf comes last and the recording reference is still live |
| CameraServiceScenarios.PlainSession | app/src/main/java/com/example/camy/CameraService.kt:140-211 | an ordinary session below 4 GiB ending in STOP, Finalize and onDestroy attempts only chunk 0, stops the pipeline once, broadcasts once and ends idle with chunkIndex 1 |
| CameraServiceScenarios.CloseSession | app/src/main/java/com/example/camy/CameraService.kt:252-265 | STOP, Finalize and onDestroy on a live chunk: no new chunk, one stop request, one broadcast, chunkIndex unchanged, not recording |
| CameraServiceScenarios.SplitMidSession | app/src/main/java/com/example/camy/CameraService.kt:179-194 | a 4 GiB status, its Finalize and the next Start event leave the service recording as before with chunkIndex one higher; the one chunk attempted carries the index it had; one stop request, no broadcast |
| CameraServiceScenarios.SplitSession | app/src/main/java/com/example/camy/CameraService.kt:179-211 | a session that crosses 4 GiB once and is then stopped and destroyed attempts exactly one further chunk (numbered with the current chunkIndex), stops the pipeline twice, broadcasts once and ends not recording |
| CameraServiceScenarios.BindFailureStaysIdle | app/src/main/java/com/example/camy/CameraService.kt:126-136 | START followed by a failed bind only requests the bind and unbinds: no chunk, not recording, counters reset, the recording reference untouched |
| AppPrefs.RecordAudioSetting | app/src/main/java/com/example/camy/CameraService.kt:142 | an absent "recordAudio" reads as true, a stored one as itself |
| AppPrefs.StorageChoiceSetting | app/src/main/java/com/example/camy/CameraService.kt:143 | an absent "storageChoice" reads as "internal", a stored one as itself |
| MainActivity.OnFlashClick | app/src/main/java/com/example/camy/MainActivity.kt:91-112 | photo mode flips the torch locally; video mode while idle does nothing; video mode while recording flips the flag and sends TOGGLE_FLASH; mode and recording never change |
| MainActivity.PhotoContentValues | app/src/main/java/com/example/camy/MainActivity.kt:249-256 | the name is "photo_{millis}_{date}.jpg", the same display name `createMediaContentValues` gives a photo; MIME image/jpeg; the activity's own Pictures/CameraX-Photos path exactly from Q on; no other key |
| MainActivity.PhotoNameIdentifiesCapture | app/src/main/java/com/example/camy/MainActivity.kt:251 | two photos the activity takes get the same display name iff they have the same timestamp and the same date text |
| MainActivity.CapturePhoto | app/src/main/java/com/example/camy/MainActivity.kt:246-256 | without an ImageCapture nothing is requested; otherwise exactly one picture, named "photo_{millis}_{date}.jpg", of type image/jpeg, with the Pictures/CameraX-Photos path iff SDK >= Q |
| MainActivity.OnCaptureClick | app/src/main/java/com/example/camy/MainActivity.kt:118-157 | photo mode changes no flag; video mode flips isRecording and sends START when idle or STOP when recording, never both; stopping forces the torch flag off |
| MainActivity.OnToggleModeClick | app/src/main/java/com/example/camy/MainActivity.kt:159-180 | the mode flips and both recording and torch end false; STOP is sent iff recording; the local torch is switched off iff in photo mode with the torch on; at most two effects |
| MainActivity.OrientationToSurfaceRotation | app/src/main/java/com/example/camy/MainActivity.kt:345-353 | total; 0..44 and 315..359 give ROTATION_0, 45..134 ROTATION_90, 135..224 ROTATION_180, 225..314 ROTATION_270, anything else ROTATION_0 |
| MainActivity.OnOrientationChanged | app/src/main/java/com/example/camy/MainActivity.kt:64-74 | ORIENTATION_UNKNOWN sends nothing; any other reading sends exactly one rotation command with its bucket |
| MainActivity.OrientationReachesService | app/src/main/java/com/example/camy/MainActivity.kt:64-74 | the rotation the service stores for a reading is the remap of its bucket, always a surface rotation, with no effect |
| MainActivity.MirroredReadingsRemap | app/src/main/java/com/example/camy/MainActivity.kt:345-353 | away from bucket borders, the reading 360 - o lands on the service's remap of the bucket of o |
| MainActivity.RequiredPermissions | app/src/main/java/com/example/camy/MainActivity.kt:48-56 | CAMERA and RECORD_AUDIO first and always; WRITE_EXTERNAL_STORAGE iff SDK < Q |
| MainActivity.OnLaunch | app/src/main/java/com/example/camy/MainActivity.kt:84-89 | the preview starts at once iff every required permission is granted; otherwise all of them are requested with code 10 |
| MainActivity.OnPermissionsResult | app/src/main/java/com/example/camy/MainActivity.kt:384-400 | other request codes are ignored; for code 10 the activity finishes iff some result is a denial, and otherwise (an empty result included) the preview starts |
| MainActivity.OnServiceStopped | app/src/main/java/com/example/camy/MainActivity.kt:302-309 | the preview restarts iff the broadcast is SERVICE_STOPPED |
| MainActivity.DestroyHandsCameraBack | app/src/main/java/com/example/camy/MainActivity.kt:190-197 | whatever state the service is destroyed in, the activity restarts its preview exactly once if it is between onResume and onPause, when its receiver is registered, and not at all otherwise |
| MainActivity.UiStepAlternates | app/src/main/java/com/example/camy/MainActivity.kt:91-180 | each button press keeps "never recording in photo mode, torch on in video mode only while recording", and the START/STOP it sends matches the isRecording flip |
| MainActivity.RunUiAlternates | app/src/main/java/com/example/camy/MainActivity.kt:118-180 | over any run of presses the service receives START and STOP strictly alternately, starting with the one that fits the current state, and isRecording ends as "last command was START" |
| MainActivity.FromLaunchStartComesFirst | app/src/main/java/com/example/camy/MainActivity.kt:118-157 | from launch, the first recording command the service receives is START, and STOP and START alternate after it |
| SettingsDialog.PositionFor | app/src/main/java/com/example/camy/SettingsDialogFragment.kt:88 | "external" shows position 1, anything else position 0 |
| SettingsDialog.ChoiceFor | app/src/main/java/com/example/camy/SettingsDialogFragment.kt:93 | position 1 saves "external", any other position "internal" |
| SettingsDialog.LoadView | app/src/main/java/com/example/camy/SettingsDialogFragment.kt:85-88 | the checkbox shows the stored audio setting (default true); the spinner is at position 1 iff "external" is stored, else 0 |
| SettingsDialog.OnSave | app/src/main/java/com/example/camy/SettingsDialogFragment.kt:90-129 | both settings are always written; "internal" removes the tree URI; the picker opens, alone, iff "external" below Q with no or an empty stored URI; otherwise the listener (if any) is told and the dialog closes |
| SettingsDialog.OnFolderPicked | app/src/main/java/com/example/camy/SettingsDialogFragment.kt:45-61 | a cancelled pick or one without a URI does nothing; an OK pick takes a persistable grant, stores the URI unchanged, reports "external" and closes |
| SettingsDialog.FinalUri | app/src/main/java/com/example/camy/SettingsDialogFragment.kt:48-52 | both branches of the "document/" test keep the URI as it is |
| SettingsDialog.SaveThenLoad | app/src/main/java/com/example/camy/SettingsDialogFragment.kt:85-97 | saving a view with position 0 or 1 and reopening the dialog shows the same view |
| SettingsDialog.LoadThenSaveKeepsSettings | app/src/main/java/com/example/camy/SettingsDialogFragment.kt:85-97 | saving what the dialog loaded leaves both settings as the app reads them |
| SettingsDialog.ClosedExternalHasTreeUri | app/src/main/java/com/example/camy/SettingsDialogFragment.kt:104-126 | below Q with "external" chosen, saving closes the dialog iff a non-empty tree URI is stored |
| SettingsDialog.ExternalFlowBelowQ | app/src/main/java/com/example/camy/SettingsDialogFragment.kt:108-122 | below Q with no stored URI, saving "external" only opens the picker, and the picked URI is then stored with both settings and the dialog closes |
| SettingsDialog.CancelledPickerChangesNothing | app/src/main/java/com/example/camy/SettingsDialogFragment.kt:46-47 | a picker result other than RESULT_OK changes no preference and emits nothing |
| SettingsDialog.SavedSettingsReachService | app/src/main/java/com/example/camy/CameraService.kt:141-156 | the next chunk the service starts after a save records audio iff the box was checked and, from Q on, goes to the "-Ext" folder iff position 1 was saved |
| MediaUtils.CreateMediaContentValues | app/src/main/java/com/example/camy/utils/MediaUtils.kt:12-32 | "image" gives a photo_*.jpg name, image/jpeg and Pictures/Camy-Pictures; any other type a video_*.mp4 name, video/mp4 and Movies/Camy-Videos; the path key exists iff SDK >= Q |
| MediaUtils.MediaNameCarriesTimestamp | app/src/main/java/com/example/camy/utils/MediaUtils.kt:15-19 | the name starts with "photo" or "video", and its second '_' field parses back to the timestamp |
| MediaUtils.MediaDisplayName | app/src/main/java/com/example/camy/utils/MediaUtils.kt:15-19 | a photo name starts with "photo_" and ends with ".jpg", a video name starts with "video_" and ends with ".mp4" |
| MediaUtils.MediaNameIdentifiesCapture | app/src/main/java/com/example/camy/utils/MediaUtils.kt:15-19 | two display names are equal iff they are of the same kind, timestamp and date text |
| MediaUtils.ToInt32 | app/src/main/java/com/example/camy/utils/MediaUtils.kt:36-40 | the Kotlin Int value is in the 32-bit range and congruent to the true value modulo 2^32 |
| MediaUtils.CopyStream | app/src/main/java/com/example/camy/utils/MediaUtils.kt:34-44 | one write per read, in order, of exactly the bytes read, then a single flush; the output holds the in-order concatenation of the reads; the total is their summed length wrapped to a Kotlin Int |
| MediaUtils.CopyStreamTotalExact | app/src/main/java/com/example/camy/utils/MediaUtils.kt:36-43 | below 2^31 bytes the total equals the exact byte count |
| MediaUtils.FindFile | app/src/main/java/com/example/camy/utils/MediaUtils.kt:48 | the first child with that name, or none when no child has it |
| MediaUtils.GetOrCreateDefaultFolder | app/src/main/java/com/example/camy/utils/MediaUtils.kt:46-52 | no root gives null; when the first child with the name (as findFile finds it) is a directory, it is returned without creation; otherwise, also when that first child is a plain file, createDirectory runs exactly once and its result (or null) is returned |
| MediaUtils.GetOrCreateSettles | app/src/main/java/com/example/camy/utils/MediaUtils.kt:46-52 | when the first child with the name, if any, is a directory, a second call after one that returned a folder creates nothing and returns the same folder; a plain file of that name ahead of it makes every call create again |
| MediaStoreVolumes.FirstSdCard | app/src/main/java/com/example/camy/utils/MediaStoreVolumes.kt:11 | the first volume that is removable and not primary, or none when there is none |
| MediaStoreVolumes.SdCardVolumeName | app/src/main/java/com/example/camy/utils/MediaStoreVolumes.kt:8-13 | null below Q; from Q on, the uuid of the first removable non-primary volume whenever there is one, and null when there is none |
| MediaStoreVolumes.PrimaryNeverSelected | app/src/main/java/com/example/camy/utils/MediaStoreVolumes.kt:11 | a primary volume is never chosen, even a removable one |
| MediaStoreVolumes.SdVolumeOrPrimary | app/src/main/java/com/example/camy/utils/MediaStoreVolumes.kt:17 | from Q on, the SD volume name or, when there is none, VOLUME_EXTERNAL_PRIMARY |
| MediaStoreVolumes.ImagesVolumeUri | app/src/main/java/com/example/camy/utils/MediaStoreVolumes.kt:15-21 | the Images collection; the legacy external volume below Q; the primary volume from Q on when there is no SD card |
| MediaStoreVolumes.VideosVolumeUri | app/src/main/java/com/example/camy/utils/MediaStoreVolumes.kt:23-29 | the Video collection, with the same volume choice |
| MediaStoreVolumes.ImagesAndVideosShareVolume | app/src/main/java/com/example/camy/utils/MediaStoreVolumes.kt:15-29 | photos and videos always resolve to the same volume |
| MediaStoreVolumes.SdCardUsedWhenPresent | app/src/main/java/com/example/camy/utils/MediaStoreVolumes.kt:8-29 | from Q on, when the first removable non-primary volume has a uuid, both collections are on that volume; when it has none, both fall back to VOLUME_EXTERNAL_PRIMARY |
| DateUtils.FormatDate | app/src/main/java/com/example/camy/utils/DateUtils.kt:6-11 | the text has at least 10 characters, all digits or '_', with '_' at positions 2 and 5 whenever day and month are below 100 |
| DateUtils.SplitFormatDate | app/src/main/java/com/example/camy/utils/DateUtils.kt:6 | splitting a formatted date on '_' gives exactly the padded day, month and year |
| DateUtils.ParseFormatDate | app/src/main/java/com/example/camy/utils/DateUtils.kt:6-11 | parsing the formatted text gives back the day, month and year it was made from |
| DateUtils.FormatDateLayout | app/src/main/java/com/example/camy/utils/DateUtils.kt:6 | for a calendar date with a four-digit year the text has length 10, '_' at 2 and 5, and two-, two- and four-digit fields holding day, month and year |

## Left out

- CameraX itself is abstracted to events and effects: ProcessCameraProvider, Recorder, VideoCapture, ImageCapture, the preview surface and `takePicture`. The bind is one success or failure event; the recorder is its Start, Status and Finalize events.
- MediaStore, ContentResolver and the document provider are not modelled; ContentValues is a string map, and a document tree is a list of children.
- `ServiceLifecycleOwner` is left out. Its transitions live in the platform's LifecycleRegistry; only its DESTROYED call in onDestroy appears, as an effect.
- The notification channel, the wake lock and executor creation are left out. The activity's receiver registration is a flag, `resumed`, that says whether the activity is between onResume and onPause. Toasts and logging are left out too. onDestroy's releases appear as effects, in order.
- `animateIconSize`, `updateFlashUI`, `updateUIForMode` and the dialog's 0.9-width layout are left out. They are widget drawing with display-density floats.
- `lockCurrentOrientation`, `unlockOrientation`, `openGallery` and the `stopPreviewInActivity` internals appear only as effects. They are platform calls with no decision in them.
- `toggleFlashForPhoto` and the service's `enableTorch` are effects. Whether the activity holds a CameraControl is left to the platform: without one the effect is a no-op.
- `System.currentTimeMillis`, `Date()` and the locale's digit shapes in SimpleDateFormat are parameters or left out. The date is passed as calendar fields and formatted with ASCII digits.
- `createDirectory` is modelled as creating a folder with exactly the requested name. The provider's renaming of clashing names is not modelled.
- Concurrency and process death are not modelled. Every callback runs on the main executor, so event traces are sequential.
- A trace covers one service instance, from its creation (`InitialService`, the field initialisers at `CameraService.kt:30-46`) to `Destroyed`. A later startService creates a new instance, so a new trace starts from `InitialService`. Callbacks of an old recording that reach the destroyed instance are not modelled.
- `CopyStream` does not model an IOException in the middle of the copy (`MediaUtils.kt:36-43`): the output would then hold only part of the input and no flush would happen. The reads are a finite list that always ends cleanly.
- `StartRecordingVideo` models only SecurityException. An exception of any other type is caught by the bind listener's `catch (e: Exception)` (`CameraService.kt:134`) and ends the bind step; when `prepareRecording` or `start` throws, `chunkIndex` has already advanced. On the Finalize path (`CameraService.kt:184-194`) nothing catches it and the service process would crash. Neither case is modelled.
- `OnFolderPicked` does not model `takePersistableUriPermission` throwing SecurityException (`SettingsDialogFragment.kt:45-61`). It always succeeds in the model.
- `BindSucceeded` reads the one rotation kept in `bindRotation`. When a second START arrives before the first bind completes, the source's two listeners each apply the rotation their own START captured (`CameraService.kt:93`, `:111`); in the model both apply the latest one. Several binds in flight at once are not modelled.

=== FILE: android.dfy ===
/**
 * Platform constants the app reads from the Android SDK. Only their values
 * matter to the model; the platform calls behind them are left out.
 */
module Android {

  /** Build.VERSION_CODES.Q (Android 10). */
  const VersionQ: int := 29

  /** Surface.ROTATION_0 .. Surface.ROTATION_270. */
  const Rotation0: int := 0
  const Rotation90: int := 1
  const Rotation180: int := 2
  const Rotation270: int := 3

  predicate IsSurfaceRotation(r: int) {
    Rotation0 <= r <= Rotation270
  }

  /** OrientationEventListener.ORIENTATION_UNKNOWN. */
  const OrientationUnknown: int := -1

  /** PackageManager.PERMISSION_GRANTED / PERMISSION_DENIED. */
  const PermissionGranted: int := 0
  const PermissionDenied: int := -1

  /** Activity.RESULT_OK. */
  const ResultOk: int := -1

  const PermissionCamera := "android.permission.CAMERA"
  const PermissionRecordAudio := "android.permission.RECORD_AUDIO"
  const PermissionWriteExternalStorage := "android.permission.WRITE_EXTERNAL_STORAGE"

  /** MediaStore.MediaColumns.DISPLAY_NAME, MIME_TYPE and RELATIVE_PATH. */
  const DisplayNameColumn := "_display_name"
  const MimeTypeColumn := "mime_type"
  const RelativePathColumn := "relative_path"

  /** A ContentValues bundle: column name to string value. */
  type ContentValues = map<string, string>
}

=== FILE: app_prefs.dfy ===
/**
 * The "MyAppPrefs" SharedPreferences file shared by the settings dialog and
 * the recording service. An absent key is None.
 */
module AppPrefs {
  import opened Optional

  const InternalStorage := "internal"
  const ExternalStorage := "external"

  datatype Prefs = Prefs(
    recordAudio: Option<bool>,      // key "recordAudio"
    storageChoice: Option<string>,  // key "storageChoice"
    sdTreeUri: Option<string>       // key "sd_tree_uri"
  )

  const EmptyPrefs := Prefs(None, None, None)

  /** `prefs.getBoolean("recordAudio", true)`. */
  function RecordAudioSetting(p: Prefs): (r: bool)
    ensures p.recordAudio.None? ==> r
    ensures p.recordAudio.Some? ==> r == p.recordAudio.value
  {
    p.recordAudio.GetOr(true)
  }

  /** `prefs.getString("storageChoice", "internal") ?: "internal"`. */
  function StorageChoiceSetting(p: Prefs): (r: string)
    ensures p.storageChoice.None? ==> r == InternalStorage
    ensures p.storageChoice.Some? ==> r == p.storageChoice.value
  {
    p.storageChoice.GetOr(InternalStorage)
  }
}

=== FILE: camera_service.dfy ===
/**
 * CameraService: the foreground service that records video in chunks of at
 * most 4 GiB. Every callback runs on the main executor, so the service is a
 * pure transition function from a state and one event to the next state and
 * the platform calls it makes, in order. CameraX, MediaStore, the clock and
 * the SharedPreferences read at chunk start are parameters of the events.
 */
module CameraService {
  import opened Optional
  import opened Decimal
  import opened Android
  import opened AppPrefs

  /** MAX_SIZE_4GB: 4 GiB. */
  const MaxChunkBytes: nat := 4 * 1024 * 1024 * 1024

  const ActionStartRecording := "com.example.camy.action.START_RECORDING"
  const ActionStopRecording := "com.example.camy.action.STOP_RECORDING"
  const ActionToggleFlash := "com.example.camy.action.TOGGLE_FLASH"
  const ActionRotationChanged := "com.example.camy.ACTION_ROTATION_CHANGED"
  /** The broadcast onDestroy sends so the activity can take the camera back. */
  const ActionServiceStopped := "com.example.camy.ACTION_SERVICE_STOPPED"

  const ChunkPathInternal := "Movies/Camy-Videos"
  const ChunkPathExternal := "Movies/Camy-Videos-Ext"
  const ChunkMime := "video/mp4"

  /** The part of an Intent the service reads: its action and the "VIDEO_ROTATION" extra. */
  datatype Intent = Intent(action: Option<string>, videoRotation: Option<int>)

  /** The commands the activity sends. */
  datatype Command = StartRecording | StopRecording | ToggleFlash | RotationChanged(rotation: int)

  /**
   * The Intent the activity builds for a command: every one names its
   * action, and only the rotation command carries the "VIDEO_ROTATION" extra.
   */
  function IntentFor(c: Command): (r: Intent)
    ensures r.action.Some?
    ensures r.videoRotation.Some? <==> c.RotationChanged?
    ensures c.RotationChanged? ==> r.videoRotation == Some(c.rotation)
  {
    match c
    case StartRecording => Intent(Some(ActionStartRecording), None)
    case StopRecording => Intent(Some(ActionStopRecording), None)
    case ToggleFlash => Intent(Some(ActionToggleFlash), None)
    case RotationChanged(r) => Intent(Some(ActionRotationChanged), Some(r))
  }

  /**
   * The `when (intent?.action)` dispatch of onStartCommand. A missing
   * rotation extra reads as ROTATION_0; any other action does nothing.
   */
  function CommandOf(i: Intent): (r: Option<Command>)
    ensures r.None? <==>
      i.action !in {Some(ActionStartRecording), Some(ActionStopRecording),
                    Some(ActionToggleFlash), Some(ActionRotationChanged)}
    ensures r.Some? ==> IntentFor(r.value).action == i.action
    ensures i.action == Some(ActionRotationChanged) ==>
              r == Some(RotationChanged(i.videoRotation.GetOr(Rotation0)))
  {
    match i.action
    case None => None
    case Some(a) =>
      if a == ActionRotationChanged then Some(RotationChanged(i.videoRotation.GetOr(Rotation0)))
      else if a == ActionStartRecording then Some(StartRecording)
      else if a == ActionStopRecording then Some(StopRecording)
      else if a == ActionToggleFlash then Some(ToggleFlash)
      else None
  }

  /** The service reads back exactly the command the activity sent. */
  lemma CommandOfIntentFor(c: Command)
    ensures CommandOf(IntentFor(c)) == Some(c)
  {
  }

  /**
   * What startRecordingVideo reads from outside at the moment it runs: the
   * preferences, the SDK level, System.currentTimeMillis, getCurrentDate, and
   * whether preparing or starting the recording throws SecurityException.
   */
  datatype ChunkEnv = ChunkEnv(prefs: Prefs, sdkInt: int, millis: nat, date: string, securityException: bool)

  datatype ServiceState = ServiceState(
    isRecording: bool,
    isFlashOn: bool,
    chunkIndex: nat,
    pendingSplit: bool,
    pendingRotation: int,
    /** videoCapture?.targetRotation; None while there is no VideoCapture. */
    captureRotation: Option<int>,
    /** activeRecording != null */
    hasActiveRecording: bool,
    /** cameraControl != null */
    hasCameraControl: bool,
    /** The rotation START captured for the bind listener it queued. */
    bindRotation: int
  )

  /** The fields as onCreate leaves them. */
  const InitialService := ServiceState(false, false, 0, false, Rotation0, None, false, false, Rotation0)

  datatype ServiceEvent =
    | StartCommand(intent: Intent)
      /** The bind listener of startCameraAndRecording; it applies the rotation START captured. */
    | BindSucceeded(env: ChunkEnv)
      /** bindToLifecycle threw; the new VideoCapture keeps the platform's default rotation. */
    | BindFailed(defaultRotation: int)
    | RecordingStarted
    | RecordingStatus(bytes: nat)
    | RecordingFinalized(env: ChunkEnv)
    | Destroyed
    | TaskRemoved

  /** The platform calls the service makes, abstracted. */
  datatype ServiceEffect =
    | RequestBind(rotation: int)
    | UnbindAll
    | StartChunk(values: ContentValues, withAudio: bool)
      /** startRecordingVideo ran but no recording started (SecurityException, or no VideoCapture). */
    | ChunkRefused(name: string)
    | StopRequested
    | EnableTorch(on: bool)
    | StopSelf
    | LifecycleDestroyed
    | BroadcastServiceStopped
    | ReleaseWakeLock
    | ShutdownExecutor

  datatype Transition = Transition(next: ServiceState, effects: seq<ServiceEffect>)

  // ---------------------------------------------------------------------
  // Chunk naming

  /** "video_chunk_{index}_{millis}_{date}.mp4". */
  function VideoChunkName(index: nat, millis: nat, date: string): (r: string)
    ensures |r| >= 20 && r[..12] == "video_chunk_" && r[|r| - 4..] == ".mp4"
  {
    "video_chunk_" + Digits(index) + "_" + Digits(millis) + "_" + date + ".mp4"
  }

  /** The chunk number a name carries in its third '_'-separated field. */
  function ChunkNumberOf(name: string): Option<nat> {
    var parts := Split(name, '_');
    if |parts| >= 3 && parts[0] == "video" && parts[1] == "chunk"
       && |parts[2]| > 0 && AllDigits(parts[2])
    then Some(ParseNat(parts[2]))
    else None
  }

  /** The index embedded in a chunk name is recovered from it, whatever the date text holds. */
  lemma ChunkNumberOfName(index: nat, millis: nat, date: string)
    ensures ChunkNumberOf(VideoChunkName(index, millis, date)) == Some(index)
  {
    var d := Digits(index);
    var rest := Digits(millis) + "_" + date + ".mp4";
    ChunkNameShape(index, millis, date);
    DigitsHaveNoSeparator(d, '_');
    SplitThreeFields("video", "chunk", d, rest, '_');
    ParseDigits(index);
  }

  /** Chunks of one session never share a name: the index alone tells them apart. */
  lemma ChunkNamesDistinct(i1: nat, m1: nat, d1: string, i2: nat, m2: nat, d2: string)
    requires i1 != i2
    ensures VideoChunkName(i1, m1, d1) != VideoChunkName(i2, m2, d2)
  {
    ChunkNumberOfName(i1, m1, d1);
    ChunkNumberOfName(i2, m2, d2);
  }

  /** The timestamp can be read back from the fourth '_'-separated field of a chunk name. */
  lemma ChunkNameCarriesTimestamp(index: nat, millis: nat, date: string)
    ensures var parts := Split(VideoChunkName(index, millis, date), '_');
      |parts| >= 4 && parts[3] == Digits(millis) && ParseNat(parts[3]) == millis
  {
    var d := Digits(index);
    var m := Digits(millis);
    var rest := date + ".mp4";
    ChunkNameShape(index, millis, date);
    assert Digits(millis) + "_" + date + ".mp4" == m + ['_'] + rest;
    DigitsHaveNoSeparator(d, '_');
    DigitsHaveNoSeparator(m, '_');
    SplitJoin("video", '_', "chunk" + ['_'] + (d + ['_'] + (m + ['_'] + rest)));
    SplitThreeFields("chunk", d, m, rest, '_');
    ParseDigits(millis);
  }

  /**
   * A chunk name tells one chunk from another: two names are equal exactly
   * when index, timestamp and date text are.
   */
  lemma ChunkNameIdentifiesChunk(i1: nat, m1: nat, d1: string, i2: nat, m2: nat, d2: string)
    ensures VideoChunkName(i1, m1, d1) == VideoChunkName(i2, m2, d2)
        <==> i1 == i2 && m1 == m2 && d1 == d2
  {
    var n1 := VideoChunkName(i1, m1, d1);
    var n2 := VideoChunkName(i2, m2, d2);
    if n1 == n2 {
      ChunkNumberOfName(i1, m1, d1);
      ChunkNumberOfName(i2, m2, d2);
      ChunkNameCarriesTimestamp(i1, m1, d1);
      ChunkNameCarriesTimestamp(i2, m2, d2);
      assert i1 == i2;
      assert m1 == m2;
      var prefix := "video_chunk_" + Digits(i1) + "_" + Digits(m1) + "_";
      assert n1 == prefix + d1 + ".mp4";
      assert n2 == prefix + d2 + ".mp4";
      assert d1 == n1[|prefix|..|n1| - 4];
      assert d2 == n2[|prefix|..|n2| - 4];
    }
  }

  lemma ChunkNameShape(index: nat, millis: nat, date: string)
    ensures VideoChunkName(index, millis, date)
         == "video" + ['_'] + ("chunk" + ['_'] + (Digits(index) + ['_'] + (Digits(millis) + "_" + date + ".mp4")))
  {
    var d := Digits(index);
    var rest := Digits(millis) + "_" + date + ".mp4";
    assert VideoChunkName(index, millis, date) == "video_chunk_" + (d + ['_'] + rest);
    ChunkPrefix(d + ['_'] + rest);
  }

  lemma ChunkPrefix(x: string)
    ensures "video_chunk_" + x == "video" + ['_'] + ("chunk" + ['_'] + x)
  {
    assert "video_chunk_" == "video" + ['_'] + "chunk" + ['_'];
  }

  /**
   * The ContentValues of a chunk: name and MIME type always, the relative
   * path only on Android 10 and later, and the "-Ext" folder exactly when
   * the storage choice is "external".
   */
  function ChunkContentValues(name: string, storageChoice: string, sdkInt: int): (r: ContentValues)
    ensures DisplayNameColumn in r && r[DisplayNameColumn] == name
    ensures MimeTypeColumn in r && r[MimeTypeColumn] == ChunkMime
    ensures RelativePathColumn in r <==> sdkInt >= VersionQ
    ensures RelativePathColumn in r ==>
              (r[RelativePathColumn] == ChunkPathExternal <==> storageChoice == ExternalStorage)
              && (r[RelativePathColumn] == ChunkPathInternal <==> storageChoice != ExternalStorage)
    ensures r.Keys <= {DisplayNameColumn, MimeTypeColumn, RelativePathColumn}
  {
    var base := map[DisplayNameColumn := name, MimeTypeColumn := ChunkMime];
    if sdkInt >= VersionQ then
      base[RelativePathColumn := if storageChoice == ExternalStorage then ChunkPathExternal else ChunkPathInternal]
    else base
  }

  // ---------------------------------------------------------------------
  // Handlers

  /**
   * startRecordingVideo: names the chunk after the current chunkIndex, then
   * increments it; the recording starts only when there is a VideoCapture and
   * no SecurityException. On SecurityException activeRecording is untouched;
   * without a VideoCapture it becomes null.
   */
  function StartRecordingVideo(s: ServiceState, env: ChunkEnv): (t: Transition)
    ensures t.next.chunkIndex == s.chunkIndex + 1
    ensures t.next == s.(chunkIndex := s.chunkIndex + 1, hasActiveRecording := t.next.hasActiveRecording)
    ensures |t.effects| == 1
    ensures t.effects[0].StartChunk? <==> s.captureRotation.Some? && !env.securityException
    ensures t.effects[0].StartChunk? ==>
              t.next.hasActiveRecording
              && t.effects[0].values
                 == ChunkContentValues(VideoChunkName(s.chunkIndex, env.millis, env.date),
                                       StorageChoiceSetting(env.prefs), env.sdkInt)
              && t.effects[0].withAudio == RecordAudioSetting(env.prefs)
    ensures t.effects[0].ChunkRefused? ==>
              t.effects[0].name == VideoChunkName(s.chunkIndex, env.millis, env.date)
              && (t.next.hasActiveRecording <==> s.hasActiveRecording && s.captureRotation.Some?)
  {
    var name := VideoChunkName(s.chunkIndex, env.millis, env.date);
    var values := ChunkContentValues(name, StorageChoiceSetting(env.prefs), env.sdkInt);
    var s1 := s.(chunkIndex := s.chunkIndex + 1);
    if s.captureRotation.None? then
      Transition(s1.(hasActiveRecording := false), [ChunkRefused(name)])
    else if env.securityException then
      Transition(s1, [ChunkRefused(name)])
    else
      Transition(s1.(hasActiveRecording := true), [StartChunk(values, RecordAudioSetting(env.prefs))])
  }

  /**
   * stopRecordingVideo: only while isRecording. Clears pendingSplit and
   * isRecording and stops the active recording if there is one.
   */
  function StopRecordingVideo(s: ServiceState): (t: Transition)
    ensures !s.isRecording ==> t == Transition(s, [])
    ensures s.isRecording ==>
              t.next == s.(pendingSplit := false, hasActiveRecording := false, isRecording := false)
    ensures multiset(t.effects)[StopRequested] == (if s.isRecording && s.hasActiveRecording then 1 else 0)
    ensures forall e :: e in t.effects ==> e == StopRequested
  {
    if s.isRecording then
      Transition(s.(pendingSplit := false, hasActiveRecording := false, isRecording := false),
                 if s.hasActiveRecording then [StopRequested] else [])
    else Transition(s, [])
  }

  /**
   * checkFileSize: at 4 GiB, and only once per pending split, stop the
   * current chunk and drop the reference to it. isRecording stays as it is.
   */
  function CheckFileSize(s: ServiceState, bytes: nat): (t: Transition)
    ensures bytes < MaxChunkBytes || s.pendingSplit ==> t == Transition(s, [])
    ensures bytes >= MaxChunkBytes && !s.pendingSplit ==>
              t.next.pendingSplit && !t.next.hasActiveRecording
              && t.next.(pendingSplit := s.pendingSplit, hasActiveRecording := s.hasActiveRecording) == s
              && multiset(t.effects)[StopRequested] == (if s.hasActiveRecording then 1 else 0)
    ensures forall e :: e in t.effects ==> e == StopRequested
  {
    if bytes >= MaxChunkBytes && !s.pendingSplit then
      Transition(s.(pendingSplit := true, hasActiveRecording := false),
                 if s.hasActiveRecording then [StopRequested] else [])
    else Transition(s, [])
  }

  /**
   * The Finalize event: isRecording becomes false; a pending split is
   * cleared and rolls over into exactly one new chunk.
   */
  function OnFinalize(s: ServiceState, env: ChunkEnv): (t: Transition)
    ensures !t.next.isRecording && !t.next.pendingSplit
    ensures !s.pendingSplit ==> t == Transition(s.(isRecording := false), [])
    ensures s.pendingSplit ==>
              |t.effects| == 1 && (t.effects[0].StartChunk? || t.effects[0].ChunkRefused?)
              && t.next.chunkIndex == s.chunkIndex + 1
  {
    var s1 := s.(isRecording := false);
    if s.pendingSplit then StartRecordingVideo(s1.(pendingSplit := false), env)
    else Transition(s1, [])
  }

  /** toggleFlash: a no-op without a CameraControl, otherwise flips the torch. */
  function ToggleTorch(s: ServiceState): (t: Transition)
    ensures !s.hasCameraControl ==> t == Transition(s, [])
    ensures s.hasCameraControl ==>
              t.next.isFlashOn == !s.isFlashOn && t.next.(isFlashOn := s.isFlashOn) == s
              && t.effects == [EnableTorch(t.next.isFlashOn)]
  {
    if !s.hasCameraControl then Transition(s, [])
    else Transition(s.(isFlashOn := !s.isFlashOn), [EnableTorch(!s.isFlashOn)])
  }

  /**
   * The rotation remap of ACTION_ROTATION_CHANGED: quarter turns are
   * mirrored (90 and 270 swap), anything unknown becomes ROTATION_0.
   */
  function RemapRotation(r: int): (q: int)
    ensures IsSurfaceRotation(q)
    ensures !IsSurfaceRotation(r) ==> q == Rotation0
    ensures IsSurfaceRotation(r) ==> (q + r) % 4 == 0
  {
    if r == Rotation0 then Rotation0
    else if r == Rotation90 then Rotation270
    else if r == Rotation180 then Rotation180
    else if r == Rotation270 then Rotation90
    else Rotation0
  }

  /** The remap undoes itself on the four surface rotations. */
  lemma RemapRotationInvolution(r: int)
    requires IsSurfaceRotation(r)
    ensures RemapRotation(RemapRotation(r)) == r
  {
  }

  /**
   * onStartCommand for a recognised action. START is ignored while
   * recording; otherwise it resets the session counters and asks for the
   * camera. STOP always ends with stopSelf, stopping the recording first only
   * if isRecording. A rotation only updates the rotation fields.
   */
  function OnCommand(s: ServiceState, c: Command): (t: Transition)
    ensures c == StartRecording && s.isRecording ==> t == Transition(s, [])
    ensures c == StartRecording && !s.isRecording ==>
              t.next.chunkIndex == 0 && !t.next.pendingSplit && t.next.bindRotation == s.pendingRotation
              && t.next.(chunkIndex := s.chunkIndex, pendingSplit := s.pendingSplit, bindRotation := s.bindRotation) == s
              && t.effects == [RequestBind(s.pendingRotation)]
    ensures c == StopRecording ==> t == StopService(s)
    ensures c.RotationChanged? ==>
              t.effects == [] && t.next.pendingRotation == RemapRotation(c.rotation)
              && t.next.(pendingRotation := s.pendingRotation, captureRotation := s.captureRotation) == s
    ensures c == ToggleFlash ==> t == ToggleTorch(s)
  {
    match c
    case RotationChanged(raw) =>
      var r := RemapRotation(raw);
      Transition(s.(pendingRotation := r,
                    captureRotation := if s.captureRotation.Some? then Some(r) else None), [])
    case StartRecording =>
      if !s.isRecording then
        Transition(s.(chunkIndex := 0, pendingSplit := false, bindRotation := s.pendingRotation),
                   [RequestBind(s.pendingRotation)])
      else Transition(s, [])
    case StopRecording =>
      StopService(s)
    case ToggleFlash =>
      ToggleTorch(s)
  }

  /** ACTION_STOP: stop the recording if there is one, then stopSelf. */
  function StopService(s: ServiceState): (t: Transition)
    ensures |t.effects| >= 1 && t.effects[|t.effects| - 1] == StopSelf
    ensures multiset(t.effects)[StopSelf] == 1
    ensures multiset(t.effects)[StopRequested] == (if s.isRecording && s.hasActiveRecording then 1 else 0)
    ensures !t.next.isRecording
    ensures s.isRecording ==> !t.next.pendingSplit && !t.next.hasActiveRecording
    ensures !s.isRecording ==> t == Transition(s, [StopSelf])
    ensures t.effects[..|t.effects| - 1] == (if s.isRecording && s.hasActiveRecording then [StopRequested] else [])
  {
    var stop := StopRecordingVideo(s);
    assert StopSelf !in stop.effects;
    assert multiset(stop.effects + [StopSelf]) == multiset(stop.effects) + multiset{StopSelf};
    Transition(stop.next, stop.effects + [StopSelf])
  }

  /** onDestroy: lifecycle first, then stop, then the broadcast and the releases. */
  function OnDestroy(s: ServiceState): (t: Transition)
    ensures t.next == StopRecordingVideo(s).next
    ensures |t.effects| >= 4 && t.effects[0] == LifecycleDestroyed
    ensures t.effects[|t.effects| - 3..] == [BroadcastServiceStopped, ReleaseWakeLock, ShutdownExecutor]
    ensures multiset(t.effects)[BroadcastServiceStopped] == 1
    ensures multiset(t.effects)[StopRequested] == (if s.isRecording && s.hasActiveRecording then 1 else 0)
    ensures t.effects[1..|t.effects| - 3] == (if s.isRecording && s.hasActiveRecording then [StopRequested] else [])
  {
    var stop := StopRecordingVideo(s);
    Transition(stop.next,
               [LifecycleDestroyed] + stop.effects
               + [BroadcastServiceStopped, ReleaseWakeLock, ShutdownExecutor])
  }

  /** One event, handled to completion on the main executor. */
  function Step(s: ServiceState, e: ServiceEvent): Transition
  {
    match e
    case StartCommand(intent) =>
      (match CommandOf(intent)
       case None => Transition(s, [])
       case Some(c) => OnCommand(s, c))
    case BindSucceeded(env) =>
      var bound := StartRecordingVideo(s.(captureRotation := Some(s.bindRotation), hasCameraControl := true), env);
      Transition(bound.next, [UnbindAll] + bound.effects)
    case BindFailed(defaultRotation) =>
      Transition(s.(captureRotation := Some(defaultRotation)), [UnbindAll])
    case RecordingStarted =>
      Transition(s.(isRecording := true), [])
    case RecordingStatus(bytes) =>
      CheckFileSize(s, bytes)
    case RecordingFinalized(env) =>
      OnFinalize(s, env)
    case Destroyed =>
      OnDestroy(s)
    case TaskRemoved =>
      StopService(s)
  }

  /**
   * The bind listener, for any state: it unbinds first, installs the
   * VideoCapture at the rotation START captured and the CameraControl, then
   * makes exactly the calls startRecordingVideo makes.
   */
  lemma BindListener(s: ServiceState, env: ChunkEnv)
    ensures var t := Step(s, BindSucceeded(env));
      var bound := s.(captureRotation := Some(s.bindRotation), hasCameraControl := true);
      && |t.effects| == 2 && t.effects[0] == UnbindAll
      && t.effects[1..] == StartRecordingVideo(bound, env).effects
      && t.next == StartRecordingVideo(bound, env).next
      && t.next.captureRotation == Some(s.bindRotation) && t.next.hasCameraControl
      && t.next.chunkIndex == s.chunkIndex + 1
  {
  }

  /** A failed bind only unbinds; the new VideoCapture keeps the platform's default rotation. */
  lemma BindListenerFailure(s: ServiceState, defaultRotation: int)
    ensures var t := Step(s, BindFailed(defaultRotation));
      && t.effects == [UnbindAll] && t.next.captureRotation == Some(defaultRotation)
      && t.next.(captureRotation := s.captureRotation) == s
  {
  }

  /** A sequence of events, handled one after the other. */
  function Run(s: ServiceState, events: seq<ServiceEvent>): Transition
    decreases |events|
  {
    if |events| == 0 then Transition(s, [])
    else
      var first := Step(s, events[0]);
      var rest := Run(first.next, events[1..]);
      Transition(rest.next, first.effects + rest.effects)
  }
}

=== FILE: camera_service_properties.dfy ===
/**
 * Properties of the recording service over sequences of events: chunk
 * numbering within a session, the 4 GiB split and its idempotence, how a
 * stop supersedes a pending split, and when isRecording can become true.
 */
module CameraServiceProperties {
  import opened Optional
  import opened Decimal
  import opened Android
  import opened AppPrefs
  import opened CameraService

  const StartEvent := StartCommand(IntentFor(StartRecording))
  const StopEvent := StartCommand(IntentFor(StopRecording))
  const ToggleEvent := StartCommand(IntentFor(ToggleFlash))

  /** Run, for any handler: lets the sequencing facts be proved without unfolding Step. */
  function Fold(step: (ServiceState, ServiceEvent) -> Transition, s: ServiceState, events: seq<ServiceEvent>)
    : Transition
    decreases |events|
  {
    if |events| == 0 then Transition(s, [])
    else
      var first := step(s, events[0]);
      var rest := Fold(step, first.next, events[1..]);
      Transition(rest.next, first.effects + rest.effects)
  }

  lemma {:induction false} RunIsFold(s: ServiceState, events: seq<ServiceEvent>)
    ensures Run(s, events) == Fold(Step, s, events)
    decreases |events|
  {
    if |events| > 0 {
      RunIsFold(Step(s, events[0]).next, events[1..]);
    }
  }

  lemma {:induction false} FoldAppend(step: (ServiceState, ServiceEvent) -> Transition, s: ServiceState,
                                      a: seq<ServiceEvent>, b: seq<ServiceEvent>)
    ensures var ta := Fold(step, s, a); var tb := Fold(step, ta.next, b);
      Fold(step, s, a + b) == Transition(tb.next, ta.effects + tb.effects)
    decreases |a|
  {
    if |a| == 0 {
      assert a + b == b;
    } else {
      assert (a + b)[0] == a[0];
      assert (a + b)[1..] == a[1..] + b;
      FoldAppend(step, step(s, a[0]).next, a[1..], b);
    }
  }

  lemma FoldOne(step: (ServiceState, ServiceEvent) -> Transition, s: ServiceState, e: ServiceEvent,
                rest: seq<ServiceEvent>)
    ensures var first := step(s, e); var tail := Fold(step, first.next, rest);
      Fold(step, s, [e] + rest) == Transition(tail.next, first.effects + tail.effects)
  {
    assert ([e] + rest)[0] == e;
    assert ([e] + rest)[1..] == rest;
  }

  /** Running one event more: the step's effects come first. */
  lemma RunCons(s: ServiceState, e: ServiceEvent, rest: seq<ServiceEvent>)
    ensures Run(s, [e] + rest)
         == Transition(Run(Step(s, e).next, rest).next, Step(s, e).effects + Run(Step(s, e).next, rest).effects)
  {
    RunIsFold(s, [e] + rest);
    RunIsFold(Step(s, e).next, rest);
    FoldOne(Step, s, e, rest);
  }

  lemma FoldTwo(step: (ServiceState, ServiceEvent) -> Transition, s: ServiceState, e1: ServiceEvent, e2: ServiceEvent)
    ensures var t1 := step(s, e1); var t2 := step(t1.next, e2);
      Fold(step, s, [e1, e2]) == Transition(t2.next, t1.effects + t2.effects)
  {
    FoldOne(step, s, e1, [e2]);
    FoldOne(step, step(s, e1).next, e2, []);
    assert [e1] + [e2] == [e1, e2];
    assert [e2] + [] == [e2];
  }

  lemma RunTwo(s: ServiceState, e1: ServiceEvent, e2: ServiceEvent)
    ensures var t1 := Step(s, e1); var t2 := Step(t1.next, e2);
      Run(s, [e1, e2]) == Transition(t2.next, t1.effects + t2.effects)
  {
    RunIsFold(s, [e1, e2]);
    FoldTwo(Step, s, e1, e2);
  }

  lemma FoldThree(step: (ServiceState, ServiceEvent) -> Transition, s: ServiceState,
                  e1: ServiceEvent, e2: ServiceEvent, e3: ServiceEvent)
    ensures var t1 := step(s, e1); var t2 := step(t1.next, e2); var t3 := step(t2.next, e3);
      Fold(step, s, [e1, e2, e3]) == Transition(t3.next, t1.effects + t2.effects + t3.effects)
  {
    FoldOne(step, s, e1, [e2, e3]);
    FoldTwo(step, step(s, e1).next, e2, e3);
    assert [e1] + [e2, e3] == [e1, e2, e3];
  }

  lemma RunThree(s: ServiceState, e1: ServiceEvent, e2: ServiceEvent, e3: ServiceEvent)
    ensures var t1 := Step(s, e1); var t2 := Step(t1.next, e2); var t3 := Step(t2.next, e3);
      Run(s, [e1, e2, e3]) == Transition(t3.next, t1.effects + t2.effects + t3.effects)
  {
    RunIsFold(s, [e1, e2, e3]);
    FoldThree(Step, s, e1, e2, e3);
  }

  /** Running two event sequences one after the other. */
  lemma RunAppend(s: ServiceState, a: seq<ServiceEvent>, b: seq<ServiceEvent>)
    ensures var ta := Run(s, a); var tb := Run(ta.next, b);
      Run(s, a + b) == Transition(tb.next, ta.effects + tb.effects)
  {
    RunIsFold(s, a + b);
    RunIsFold(s, a);
    RunIsFold(Run(s, a).next, b);
    FoldAppend(Step, s, a, b);
  }

  /** A command intent is dispatched to its handler. */
  lemma StepCommand(s: ServiceState, c: Command)
    ensures Step(s, StartCommand(IntentFor(c))) == OnCommand(s, c)
  {
    CommandOfIntentFor(c);
  }

  // ---------------------------------------------------------------------
  // Chunk numbering

  predicate IsChunkAttempt(e: ServiceEffect) {
    e.StartChunk? || e.ChunkRefused?
  }

  /** The chunk number an attempt's name carries, -1 when it carries none. */
  function AttemptNumber(e: ServiceEffect): int
    requires IsChunkAttempt(e)
  {
    var name := if e.ChunkRefused? then Some(e.name)
                else if DisplayNameColumn in e.values then Some(e.values[DisplayNameColumn])
                else None;
    match name
    case None => -1
    case Some(n) => (match ChunkNumberOf(n) case None => -1 case Some(k) => k)
  }

  /** The chunk numbers one effect contributes: one for an attempt, none otherwise. */
  function AttemptNumbers(e: ServiceEffect): seq<int> {
    if IsChunkAttempt(e) then [AttemptNumber(e)] else []
  }

  /** The numbers of all chunk attempts in a list of effects, in order. */
  function ChunkNumbers(effects: seq<ServiceEffect>): seq<int> {
    Collect(AttemptNumbers, effects)
  }

  /** The concatenation of f over a list: lets list facts be proved without unfolding f. */
  function Collect<T>(f: T -> seq<int>, xs: seq<T>): seq<int>
    decreases |xs|
  {
    if |xs| == 0 then [] else f(xs[0]) + Collect(f, xs[1..])
  }

  lemma {:induction false} CollectAppend<T>(f: T -> seq<int>, a: seq<T>, b: seq<T>)
    ensures Collect(f, a + b) == Collect(f, a) + Collect(f, b)
    decreases |a|
  {
    if |a| == 0 {
      assert a + b == b;
    } else {
      assert (a + b)[0] == a[0];
      assert (a + b)[1..] == a[1..] + b;
      CollectAppend(f, a[1..], b);
    }
  }

  lemma {:induction false} CollectNothing<T>(f: T -> seq<int>, xs: seq<T>)
    requires forall x :: x in xs ==> f(x) == []
    ensures Collect(f, xs) == []
    decreases |xs|
  {
    if |xs| > 0 {
      assert xs[0] in xs;
      assert forall x :: x in xs[1..] ==> x in xs;
      CollectNothing(f, xs[1..]);
    }
  }

  /** [lo, lo + 1, ..., hi - 1]. */
  function Range(lo: nat, hi: nat): (r: seq<int>)
    requires lo <= hi
    ensures |r| == hi - lo
    ensures forall i :: 0 <= i < |r| ==> r[i] == lo + i
    decreases hi - lo
  {
    if lo == hi then [] else [lo] + Range(lo + 1, hi)
  }

  lemma ChunkNumbersAppend(a: seq<ServiceEffect>, b: seq<ServiceEffect>)
    ensures ChunkNumbers(a + b) == ChunkNumbers(a) + ChunkNumbers(b)
  {
    CollectAppend(AttemptNumbers, a, b);
  }

  lemma NoAttemptNoNumbers(effects: seq<ServiceEffect>)
    requires forall e :: e in effects ==> !IsChunkAttempt(e)
    ensures ChunkNumbers(effects) == []
  {
    CollectNothing(AttemptNumbers, effects);
  }

  lemma RangeAppend(a: nat, b: nat, c: nat)
    requires a <= b <= c
    ensures Range(a, b) + Range(b, c) == Range(a, c)
  {
  }

  /** A starting chunk's effect carries the pre-increment chunkIndex in its name. */
  lemma StartRecordingVideoNumbers(s: ServiceState, env: ChunkEnv)
    ensures ChunkNumbers(StartRecordingVideo(s, env).effects) == [s.chunkIndex]
  {
    var t := StartRecordingVideo(s, env);
    ChunkNumberOfName(s.chunkIndex, env.millis, env.date);
    assert t.effects[1..] == [];
    assert IsChunkAttempt(t.effects[0]) && AttemptNumber(t.effects[0]) == s.chunkIndex;
    assert AttemptNumbers(t.effects[0]) == [s.chunkIndex];
    assert Collect(AttemptNumbers, t.effects) == AttemptNumbers(t.effects[0]) + Collect(AttemptNumbers, t.effects[1..]);
  }

  predicate IsStartCommand(e: ServiceEvent) {
    e.StartCommand? && CommandOf(e.intent) == Some(StartRecording)
  }

  /** Where the chunk numbers of a step count from: 0 right after an accepted START. */
  function ChunkBase(s: ServiceState, e: ServiceEvent): nat {
    if IsStartCommand(e) && !s.isRecording then 0 else s.chunkIndex
  }

  /** Commands attempt no chunk; only an accepted START moves chunkIndex, to 0. */
  lemma CommandStepNumbers(s: ServiceState, intent: Intent)
    ensures var t := Step(s, StartCommand(intent));
      ChunkNumbers(t.effects) == []
      && t.next.chunkIndex == ChunkBase(s, StartCommand(intent))
  {
    var t := Step(s, StartCommand(intent));
    match CommandOf(intent) {
      case None =>
      case Some(c) =>
        assert t == OnCommand(s, c);
        match c {
          case StopRecording =>
            StopEffectsNumbers(s);
          case StartRecording =>
            NoAttemptNoNumbers(t.effects);
          case ToggleFlash =>
            NoAttemptNoNumbers(t.effects);
          case RotationChanged(_) =>
        }
    }
  }

  lemma BindStepNumbers(s: ServiceState, env: ChunkEnv)
    ensures var t := Step(s, BindSucceeded(env));
      t.next.chunkIndex == s.chunkIndex + 1
      && ChunkNumbers(t.effects) == [s.chunkIndex]
  {
    var s1 := s.(captureRotation := Some(s.bindRotation), hasCameraControl := true);
    var bound := StartRecordingVideo(s1, env);
    StartRecordingVideoNumbers(s1, env);
    ChunkNumbersAppend([UnbindAll], bound.effects);
    NoAttemptNoNumbers([UnbindAll]);
  }

  lemma FinalizeStepNumbers(s: ServiceState, env: ChunkEnv)
    ensures var t := Step(s, RecordingFinalized(env));
      s.chunkIndex <= t.next.chunkIndex
      && ChunkNumbers(t.effects) == Range(s.chunkIndex, t.next.chunkIndex)
  {
    if s.pendingSplit {
      StartRecordingVideoNumbers(s.(isRecording := false, pendingSplit := false), env);
    }
  }

  /** The effects that only stop things attempt no chunk. */
  lemma StopEffectsNumbers(s: ServiceState)
    ensures ChunkNumbers(StopService(s).effects) == []
  {
    var effects := StopRecordingVideo(s).effects + [StopSelf];
    assert effects == StopService(s).effects;
    assert forall e :: e in effects ==> e == StopRequested || e == StopSelf;
    NoAttemptNoNumbers(effects);
  }

  lemma DestroyEffectsNumbers(s: ServiceState)
    ensures ChunkNumbers(OnDestroy(s).effects) == []
  {
    DestroyShapeNumbers(StopRecordingVideo(s).effects);
  }

  lemma DestroyShapeNumbers(stops: seq<ServiceEffect>)
    requires forall e :: e in stops ==> e == StopRequested
    ensures ChunkNumbers([LifecycleDestroyed] + stops + [BroadcastServiceStopped, ReleaseWakeLock, ShutdownExecutor]) == []
  {
    NoAttemptNoNumbers([LifecycleDestroyed] + stops + [BroadcastServiceStopped, ReleaseWakeLock, ShutdownExecutor]);
  }

  /** Every step's chunk attempts are numbered consecutively, up to the new chunkIndex. */
  lemma StepChunkNumbers(s: ServiceState, e: ServiceEvent)
    ensures var t := Step(s, e);
      ChunkBase(s, e) <= t.next.chunkIndex
      && ChunkNumbers(t.effects) == Range(ChunkBase(s, e), t.next.chunkIndex)
  {
    var t := Step(s, e);
    if e.StartCommand? {
      CommandStepNumbers(s, e.intent);
    } else if e.BindSucceeded? {
      BindStepNumbers(s, e.env);
      assert ChunkBase(s, e) == s.chunkIndex;
      assert Range(s.chunkIndex, s.chunkIndex + 1) == [s.chunkIndex];
    } else if e.RecordingFinalized? {
      FinalizeStepNumbers(s, e.env);
    } else {
      QuietStepNumbers(s, e);
    }
  }

  /** The events that neither start a session nor roll a chunk over attempt no chunk. */
  lemma QuietStepNumbers(s: ServiceState, e: ServiceEvent)
    requires !e.StartCommand? && !e.BindSucceeded? && !e.RecordingFinalized?
    ensures Step(s, e).next.chunkIndex == s.chunkIndex && ChunkNumbers(Step(s, e).effects) == []
  {
    if e.RecordingStatus? {
      NoAttemptNoNumbers(CheckFileSize(s, e.bytes).effects);
    } else if e.BindFailed? {
      NoAttemptNoNumbers([UnbindAll]);
    } else if e.Destroyed? {
      DestroyEffectsNumbers(s);
    } else if e.TaskRemoved? {
      StopEffectsNumbers(s);
    }
  }

  /**
   * Without a START command, the chunks attempted over any run of events are
   * numbered chunkIndex, chunkIndex + 1, ... and chunkIndex ends one past the
   * last of them.
   */
  lemma {:induction false} RunChunkNumbers(s: ServiceState, events: seq<ServiceEvent>)
    requires forall i :: 0 <= i < |events| ==> !IsStartCommand(events[i])
    ensures var t := Run(s, events);
      s.chunkIndex <= t.next.chunkIndex
      && ChunkNumbers(t.effects) == Range(s.chunkIndex, t.next.chunkIndex)
    decreases |events|
  {
    if |events| > 0 {
      var first := Step(s, events[0]);
      StepChunkNumbers(s, events[0]);
      RunChunkNumbers(first.next, events[1..]);
      var rest := Run(first.next, events[1..]);
      ChunkNumbersAppend(first.effects, rest.effects);
      RangeAppend(s.chunkIndex, first.next.chunkIndex, rest.next.chunkIndex);
    }
  }

  /**
   * A session opened by START from a non-recording service numbers its
   * chunks 0, 1, 2, ...; chunkIndex ends equal to the number of chunks
   * started (or refused) in it.
   */
  lemma SessionChunkNumbers(s: ServiceState, events: seq<ServiceEvent>)
    requires !s.isRecording
    requires forall i :: 0 <= i < |events| ==> !IsStartCommand(events[i])
    ensures var t := Run(s, [StartEvent] + events);
      ChunkNumbers(t.effects) == Range(0, t.next.chunkIndex)
      && |ChunkNumbers(t.effects)| == t.next.chunkIndex
  {
    var all := [StartEvent] + events;
    assert all[1..] == events;
    var first := Step(s, StartEvent);
    StepCommand(s, StartRecording);
    assert first.next.chunkIndex == 0;
    assert first.effects == [RequestBind(s.pendingRotation)];
    NoAttemptNoNumbers(first.effects);
    RunChunkNumbers(first.next, events);
    ChunkNumbersAppend(first.effects, Run(first.next, events).effects);
  }

  // ---------------------------------------------------------------------
  // The 4 GiB split

  function StatusEvents(bytes: seq<nat>): (es: seq<ServiceEvent>)
    ensures |es| == |bytes|
    ensures forall i :: 0 <= i < |bytes| ==> es[i] == RecordingStatus(bytes[i])
  {
    seq(|bytes|, i requires 0 <= i < |bytes| => RecordingStatus(bytes[i]))
  }

  predicate ReachesLimit(bytes: seq<nat>) {
    exists i :: 0 <= i < |bytes| && bytes[i] >= MaxChunkBytes
  }

  /**
   * Over any run of Status events, the pipeline is asked to stop at most
   * once: exactly when no split was pending, a recording is active and some
   * status reaches 4 GiB. pendingSplit ends set exactly when it was set or
   * the limit was reached; the other fields only lose the active recording.
   */
  lemma {:induction false} StatusRunSplitsOnce(s: ServiceState, bytes: seq<nat>)
    ensures var t := Run(s, StatusEvents(bytes));
      && multiset(t.effects)[StopRequested]
         == (if !s.pendingSplit && s.hasActiveRecording && ReachesLimit(bytes) then 1 else 0)
      && (forall e :: e in t.effects ==> e == StopRequested)
      && (t.next.pendingSplit <==> s.pendingSplit || ReachesLimit(bytes))
      && t.next.(pendingSplit := s.pendingSplit, hasActiveRecording := s.hasActiveRecording) == s
      && (t.next.hasActiveRecording <==> s.hasActiveRecording && (s.pendingSplit || !ReachesLimit(bytes)))
    decreases |bytes|
  {
    if |bytes| > 0 {
      var first := CheckFileSize(s, bytes[0]);
      var rest := Run(first.next, StatusEvents(bytes[1..]));
      StatusRunCons(s, bytes);
      StatusRunSplitsOnce(first.next, bytes[1..]);
      ReachesLimitCons(bytes);
      assert multiset(first.effects + rest.effects) == multiset(first.effects) + multiset(rest.effects);
    }
  }

  lemma StatusRunCons(s: ServiceState, bytes: seq<nat>)
    requires |bytes| > 0
    ensures var first := CheckFileSize(s, bytes[0]);
      var rest := Run(first.next, StatusEvents(bytes[1..]));
      Run(s, StatusEvents(bytes)) == Transition(rest.next, first.effects + rest.effects)
  {
    assert StatusEvents(bytes) == [RecordingStatus(bytes[0])] + StatusEvents(bytes[1..]);
    RunCons(s, RecordingStatus(bytes[0]), StatusEvents(bytes[1..]));
  }

  lemma ReachesLimitCons(bytes: seq<nat>)
    requires |bytes| > 0
    ensures ReachesLimit(bytes) <==> bytes[0] >= MaxChunkBytes || ReachesLimit(bytes[1..])
  {
    if ReachesLimit(bytes[1..]) {
      var i :| 0 <= i < |bytes[1..]| && bytes[1..][i] >= MaxChunkBytes;
      assert bytes[i + 1] >= MaxChunkBytes;
    }
    if ReachesLimit(bytes) && bytes[0] < MaxChunkBytes {
      var i :| 0 <= i < |bytes| && bytes[i] >= MaxChunkBytes;
      assert bytes[1..][i - 1] >= MaxChunkBytes;
    }
  }

  lemma {:induction false} OnlyStopsCount(effects: seq<ServiceEffect>)
    requires forall e :: e in effects ==> e == StopRequested
    ensures multiset(effects)[StopRequested] == |effects|
    decreases |effects|
  {
    if |effects| > 0 {
      var init := effects[..|effects| - 1];
      assert effects == init + [effects[|effects| - 1]];
      assert multiset(effects) == multiset(init) + multiset{effects[|effects| - 1]};
      assert effects[|effects| - 1] in effects;
      assert forall e :: e in init ==> e in effects;
      OnlyStopsCount(init);
    }
  }

  /** While a split is pending, Status events change nothing and request nothing. */
  lemma StatusWhilePendingIsIgnored(s: ServiceState, bytes: seq<nat>)
    requires s.pendingSplit
    ensures Run(s, StatusEvents(bytes)) == Transition(s, [])
  {
    StatusRunSplitsOnce(s, bytes);
    var t := Run(s, StatusEvents(bytes));
    OnlyStopsCount(t.effects);
  }

  /**
   * A split followed by its Finalize stops the chunk once and starts the
   * next one, numbered one higher, into the same kind of folder.
   */
  lemma SplitRollsOver(s: ServiceState, bytes: nat, env: ChunkEnv)
    requires !s.pendingSplit && bytes >= MaxChunkBytes
    requires s.captureRotation.Some? && !env.securityException
    ensures var t := Run(s, [RecordingStatus(bytes), RecordingFinalized(env)]);
      && t.effects == (if s.hasActiveRecording then [StopRequested] else [])
                      + [StartChunk(ChunkContentValues(VideoChunkName(s.chunkIndex, env.millis, env.date),
                                                       StorageChoiceSetting(env.prefs), env.sdkInt),
                                    RecordAudioSetting(env.prefs))]
      && t.next.chunkIndex == s.chunkIndex + 1
      && t.next.hasActiveRecording && !t.next.pendingSplit && !t.next.isRecording
  {
    RunTwo(s, RecordingStatus(bytes), RecordingFinalized(env));
  }

  /**
   * Stop beats split: a STOP while a split is pending clears it (and, the
   * recording reference being gone already, requests no second stop), so the
   * Finalize that follows starts no chunk.
   */
  lemma StopSupersedesSplit(s: ServiceState, bytes: nat, env: ChunkEnv)
    requires s.isRecording && !s.pendingSplit && bytes >= MaxChunkBytes
    ensures var t := Run(s, [RecordingStatus(bytes), StopEvent, RecordingFinalized(env)]);
      && multiset(t.effects)[StopRequested] == (if s.hasActiveRecording then 1 else 0)
      && ChunkNumbers(t.effects) == []
      && StopSelf in t.effects
      && !t.next.isRecording && !t.next.pendingSplit && !t.next.hasActiveRecording
      && t.next.chunkIndex == s.chunkIndex
  {
    var stops := if s.hasActiveRecording then [StopRequested] else [];
    var s1 := s.(pendingSplit := true, hasActiveRecording := false);
    var s2 := s1.(pendingSplit := false, isRecording := false);
    assert Step(s, RecordingStatus(bytes)) == Transition(s1, stops);
    assert Step(s1, StopEvent) == Transition(s2, [StopSelf]) by {
      StepCommand(s1, StopRecording);
    }
    assert Step(s2, RecordingFinalized(env)) == Transition(s2, []);
    RunThree(s, RecordingStatus(bytes), StopEvent, RecordingFinalized(env));
    StopsThenSelf(stops, [StopSelf], []);
  }

  /** Effects made only of pipeline stops, then stopSelf: no chunk, stopSelf last. */
  lemma StopsThenSelf(stops: seq<ServiceEffect>, self: seq<ServiceEffect>, rest: seq<ServiceEffect>)
    requires forall e :: e in stops ==> e == StopRequested
    requires self == [StopSelf] && rest == []
    ensures var all := stops + self + rest;
      && multiset(all)[StopRequested] == multiset(stops)[StopRequested]
      && all[|all| - 1] == StopSelf
      && StopSelf in all
      && ChunkNumbers(all) == []
  {
    var all := stops + self + rest;
    assert all == stops + [StopSelf];
    assert multiset(all) == multiset(stops) + multiset{StopSelf};
    assert forall e :: e in all ==> e == StopRequested || e == StopSelf;
    NoAttemptNoNumbers(all);
  }

  /** A STOP while recording, followed by its Finalize, starts no further chunk. */
  lemma StopThenFinalizeEndsSession(s: ServiceState, env: ChunkEnv)
    requires s.isRecording
    ensures var t := Run(s, [StopEvent, RecordingFinalized(env)]);
      && multiset(t.effects)[StopRequested] == (if s.hasActiveRecording then 1 else 0)
      && t.effects[|t.effects| - 1] == StopSelf
      && ChunkNumbers(t.effects) == []
      && !t.next.isRecording && !t.next.pendingSplit
  {
    StepCommand(s, StopRecording);
    var t1 := StopService(s);
    assert Step(s, StopEvent) == t1;
    var t2 := Step(t1.next, RecordingFinalized(env));
    assert t2.effects == [] && !t2.next.isRecording && !t2.next.pendingSplit;
    RunTwo(s, StopEvent, RecordingFinalized(env));
    assert t1.effects + t2.effects == t1.effects;
    StopEffectsNumbers(s);
  }

  // ---------------------------------------------------------------------
  // isRecording

  /** Only the pipeline's Start event turns isRecording on. */
  lemma {:induction false} RecordingNeedsStartEvent(s: ServiceState, events: seq<ServiceEvent>)
    requires !s.isRecording
    requires forall i :: 0 <= i < |events| ==> events[i] != RecordingStarted
    ensures !Run(s, events).next.isRecording
    decreases |events|
  {
    if |events| > 0 {
      StepKeepsNotRecording(s, events[0]);
      RecordingNeedsStartEvent(Step(s, events[0]).next, events[1..]);
    }
  }

  lemma StepKeepsNotRecording(s: ServiceState, e: ServiceEvent)
    requires !s.isRecording && e != RecordingStarted
    ensures !Step(s, e).next.isRecording
  {
    if e.StartCommand? {
      match CommandOf(e.intent) {
        case None =>
        case Some(c) => assert Step(s, e) == OnCommand(s, c);
      }
    }
  }

  /** After a Finalize, isRecording stays false until the next Start event. */
  lemma NotRecordingAfterFinalize(s: ServiceState, env: ChunkEnv, events: seq<ServiceEvent>)
    requires forall i :: 0 <= i < |events| ==> events[i] != RecordingStarted
    ensures !Run(s, [RecordingFinalized(env)] + events).next.isRecording
  {
    var all := [RecordingFinalized(env)] + events;
    assert all[1..] == events;
    RecordingNeedsStartEvent(Step(s, all[0]).next, events);
  }

  /** Swiping the app away does exactly what a STOP command does. */
  lemma TaskRemovedActsAsStop(s: ServiceState)
    ensures Step(s, TaskRemoved) == Step(s, StopEvent)
    ensures Step(s, TaskRemoved).effects[|Step(s, TaskRemoved).effects| - 1] == StopSelf
    ensures !Step(s, TaskRemoved).next.isRecording
  {
    var t := StopService(s);
    assert Step(s, TaskRemoved) == t;
    assert Step(s, StopEvent) == t by {
      StepCommand(s, StopRecording);
    }
  }

  // ---------------------------------------------------------------------
  // Flash and rotation

  /** Toggling the torch twice restores the state, with or without a CameraControl. */
  lemma ToggleTwiceRestores(s: ServiceState)
    ensures Run(s, [ToggleEvent, ToggleEvent]).next == s
  {
    StepCommand(s, ToggleFlash);
    StepCommand(Step(s, ToggleEvent).next, ToggleFlash);
    RunTwo(s, ToggleEvent, ToggleEvent);
  }

  /** A rotation change never touches the recording: no effect, only the rotation fields change. */
  lemma RotationLeavesRecordingAlone(s: ServiceState, raw: int)
    ensures var t := Step(s, StartCommand(IntentFor(RotationChanged(raw))));
      && t.effects == []
      && t.next.pendingRotation == RemapRotation(raw)
      && t.next.(pendingRotation := s.pendingRotation, captureRotation := s.captureRotation) == s
      && (s.captureRotation.Some? ==> t.next.captureRotation == Some(RemapRotation(raw)))
      && (s.captureRotation.None? ==> t.next.captureRotation.None?)
  {
    CommandOfIntentFor(RotationChanged(raw));
  }

  /**
   * A rotation intent without the "VIDEO_ROTATION" extra reads as ROTATION_0:
   * the pending rotation becomes ROTATION_0 and nothing is emitted.
   */
  lemma RotationWithoutExtraIsRotation0(s: ServiceState)
    ensures var t := Step(s, StartCommand(Intent(Some(ActionRotationChanged), None)));
      && t.effects == []
      && t.next.pendingRotation == Rotation0
      && t.next.(pendingRotation := s.pendingRotation, captureRotation := s.captureRotation) == s
  {
    var intent := Intent(Some(ActionRotationChanged), None);
    assert CommandOf(intent) == Some(RotationChanged(Rotation0));
    assert Step(s, StartCommand(intent)) == OnCommand(s, RotationChanged(Rotation0));
    StepCommand(s, RotationChanged(Rotation0));
    RotationLeavesRecordingAlone(s, Rotation0);
  }
}

=== FILE: camera_service_scenarios.dfy ===
/**
 * Whole sessions of the recording service from a freshly created service:
 * an ordinary recording, a recording that crosses 4 GiB once, and a camera
 * that cannot be bound.
 */
module CameraServiceScenarios {
  import opened Optional
  import opened Android
  import opened AppPrefs
  import opened CameraService
  import opened CameraServiceProperties

  /** Status events below the limit, on a recording with no split pending, do nothing. */
  lemma QuietStatusRun(s: ServiceState, bytes: seq<nat>)
    requires forall i :: 0 <= i < |bytes| ==> bytes[i] < MaxChunkBytes
    ensures Run(s, StatusEvents(bytes)) == Transition(s, [])
  {
    StatusRunSplitsOnce(s, bytes);
    var t := Run(s, StatusEvents(bytes));
    OnlyStopsCount(t.effects);
  }

  lemma StartStep(s: ServiceState)
    requires !s.isRecording
    ensures Step(s, StartEvent)
         == Transition(s.(chunkIndex := 0, pendingSplit := false, bindRotation := s.pendingRotation), [RequestBind(s.pendingRotation)])
  {
    StepCommand(s, StartRecording);
  }

  lemma BindStep(s: ServiceState, env: ChunkEnv)
    requires !env.securityException
    ensures var t := Step(s, BindSucceeded(env));
      && t.next == s.(captureRotation := Some(s.bindRotation), hasCameraControl := true,
                      chunkIndex := s.chunkIndex + 1, hasActiveRecording := true)
      && |t.effects| == 2 && t.effects[0] == UnbindAll && t.effects[1].StartChunk?
      && ChunkNumbers([t.effects[1]]) == [s.chunkIndex]
  {
    var s1 := s.(captureRotation := Some(s.bindRotation), hasCameraControl := true);
    StartRecordingVideoNumbers(s1, env);
    assert StartRecordingVideo(s1, env).effects == [StartRecordingVideo(s1, env).effects[0]];
  }

  /**
   * A STOP that arrives after the chunk has started but before its Start
   * event requests no pipeline stop: the recording stays active and the
   * service only stops itself.
   */
  lemma EarlyStopLeavesRecordingActive(s: ServiceState, env: ChunkEnv)
    requires !s.isRecording && !env.securityException
    ensures var t := Run(s, [StartEvent, BindSucceeded(env), StopEvent]);
      && StopRequested !in t.effects
      && t.effects[|t.effects| - 1] == StopSelf
      && t.next.hasActiveRecording
  {
    var s0 := s.(chunkIndex := 0, pendingSplit := false, bindRotation := s.pendingRotation);
    StartStep(s);
    BindStep(s0, env);
    var t2 := Step(s0, BindSucceeded(env));
    StepCommand(t2.next, StopRecording);
    assert Step(t2.next, StopEvent) == Transition(t2.next, [StopSelf]);
    RunThree(s, StartEvent, BindSucceeded(env), StopEvent);
    BindThenSelf([RequestBind(s.pendingRotation)], t2.effects, [StopSelf]);
  }

  /** The effects of a START, its bind and an early STOP: no pipeline stop, stopSelf last. */
  lemma BindThenSelf(request: seq<ServiceEffect>, bind: seq<ServiceEffect>, self: seq<ServiceEffect>)
    requires |request| == 1 && request[0].RequestBind?
    requires |bind| == 2 && bind[0] == UnbindAll && bind[1].StartChunk?
    requires self == [StopSelf]
    ensures var all := request + bind + self;
      StopRequested !in all && all[|all| - 1] == StopSelf
  {
    var all := request + bind + self;
    assert all == [request[0], UnbindAll, bind[1], StopSelf];
  }

  /** The effects of opening a session: the bind request, the unbind, then the first chunk. */
  lemma OpenEffects(rotation: int, chunk: ServiceEffect)
    requires chunk.StartChunk? && ChunkNumbers([chunk]) == [0]
    ensures var all := [RequestBind(rotation)] + [UnbindAll, chunk] + [];
      && all[0] == RequestBind(rotation)
      && ChunkNumbers(all) == [0]
      && multiset(all)[StopRequested] == 0 && multiset(all)[BroadcastServiceStopped] == 0
  {
    var all := [RequestBind(rotation)] + [UnbindAll, chunk] + [];
    assert all == [RequestBind(rotation), UnbindAll] + [chunk];
    ChunkNumbersAppend([RequestBind(rotation), UnbindAll], [chunk]);
    NoAttemptNoNumbers([RequestBind(rotation), UnbindAll]);
  }

  /** The three steps of opening a session, composed into one transition. */
  lemma OpenSessionRun(s: ServiceState, env: ChunkEnv)
    requires !s.isRecording
    ensures var s0 := s.(chunkIndex := 0, pendingSplit := false, bindRotation := s.pendingRotation);
      var t2 := Step(s0, BindSucceeded(env));
      Run(s, [StartEvent, BindSucceeded(env), RecordingStarted])
        == Transition(t2.next.(isRecording := true), [RequestBind(s.pendingRotation)] + t2.effects + [])
  {
    var s0 := s.(chunkIndex := 0, pendingSplit := false, bindRotation := s.pendingRotation);
    assert Step(s, StartEvent) == Transition(s0, [RequestBind(s.pendingRotation)]) by {
      StartStep(s);
    }
    var s2 := Step(s0, BindSucceeded(env)).next;
    assert Step(s2, RecordingStarted) == Transition(s2.(isRecording := true), []) by {
      StartedStep(s2);
    }
    RunThree(s, StartEvent, BindSucceeded(env), RecordingStarted);
  }

  /**
   * START on an idle service, a successful bind and the Start event: one
   * chunk, numbered 0, is recording, and chunkIndex is 1.
   */
  lemma OpenSession(s: ServiceState, env: ChunkEnv)
    requires !s.isRecording && !env.securityException
    ensures var t := Run(s, [StartEvent, BindSucceeded(env), RecordingStarted]);
      && t.next.isRecording && t.next.hasActiveRecording && !t.next.pendingSplit
      && t.next.chunkIndex == 1 && t.next.captureRotation == Some(s.pendingRotation)
      && t.effects[0] == RequestBind(s.pendingRotation)
      && ChunkNumbers(t.effects) == [0]
      && multiset(t.effects)[StopRequested] == 0 && multiset(t.effects)[BroadcastServiceStopped] == 0
  {
    var s0 := s.(chunkIndex := 0, pendingSplit := false, bindRotation := s.pendingRotation);
    var t2 := Step(s0, BindSucceeded(env));
    OpenSessionRun(s, env);
    BindStep(s0, env);
    assert t2.effects == [UnbindAll, t2.effects[1]];
    OpenEffects(s.pendingRotation, t2.effects[1]);
  }

  /**
   * A service just created (its field initialisers and onCreate) binds its
   * first session at ROTATION_0 and numbers its first chunk 0, with the
   * torch off.
   */
  lemma FreshServiceOpens(env: ChunkEnv)
    requires !env.securityException
    ensures var t := Run(InitialService, [StartEvent, BindSucceeded(env), RecordingStarted]);
      && t.next.isRecording && !t.next.isFlashOn && t.next.chunkIndex == 1
      && t.next.captureRotation == Some(Rotation0)
      && t.effects[0] == RequestBind(Rotation0)
      && ChunkNumbers(t.effects) == [0]
  {
    var s0 := InitialService.(chunkIndex := 0, pendingSplit := false, bindRotation := Rotation0);
    OpenSession(InitialService, env);
    OpenSessionRun(InitialService, env);
    BindStep(s0, env);
  }

  /** Effects of three consecutive runs, counted and numbered piecewise. */
  lemma ThreeParts(x: seq<ServiceEffect>, y: seq<ServiceEffect>, z: seq<ServiceEffect>)
    ensures ChunkNumbers(x + y + z) == ChunkNumbers(x) + ChunkNumbers(y) + ChunkNumbers(z)
    ensures multiset(x + y + z) == multiset(x) + multiset(y) + multiset(z)
  {
    ChunkNumbersAppend(x, y);
    ChunkNumbersAppend(x + y, z);
  }

  lemma RunAppendThree(s: ServiceState, a: seq<ServiceEvent>, b: seq<ServiceEvent>, c: seq<ServiceEvent>)
    ensures var ta := Run(s, a); var tb := Run(ta.next, b); var tc := Run(tb.next, c);
      Run(s, a + b + c) == Transition(tc.next, ta.effects + tb.effects + tc.effects)
  {
    RunAppend(s, a, b);
    RunAppend(s, a + b, c);
  }

  /**
   * An ordinary session from an idle service: statuses under 4 GiB, then
   * STOP, Finalize and the service's destruction. One chunk (numbered 0) is
   * started, the pipeline is stopped once, the stop broadcast goes out once,
   * and chunkIndex ends at 1, the number of chunks started.
   */
  lemma PlainSession(s: ServiceState, env: ChunkEnv, bytes: seq<nat>)
    requires !s.isRecording && !env.securityException
    requires forall i :: 0 <= i < |bytes| ==> bytes[i] < MaxChunkBytes
    ensures var t := Run(s, [StartEvent, BindSucceeded(env), RecordingStarted]
                            + StatusEvents(bytes)
                            + [StopEvent, RecordingFinalized(env), Destroyed]);
      && ChunkNumbers(t.effects) == [0]
      && multiset(t.effects)[StopRequested] == 1
      && multiset(t.effects)[BroadcastServiceStopped] == 1
      && t.next.chunkIndex == 1 && !t.next.isRecording
  {
    var open := [StartEvent, BindSucceeded(env), RecordingStarted];
    var close := [StopEvent, RecordingFinalized(env), Destroyed];
    var t1 := Run(s, open);
    var t3 := Run(t1.next, close);
    PlainSessionParts(s, env, bytes);
    RunAppendThree(s, open, StatusEvents(bytes), close);
    ThreeParts(t1.effects, [], t3.effects);
  }

  /** The three segments of an ordinary session, one lemma each. */
  lemma PlainSessionParts(s: ServiceState, env: ChunkEnv, bytes: seq<nat>)
    requires !s.isRecording && !env.securityException
    requires forall i :: 0 <= i < |bytes| ==> bytes[i] < MaxChunkBytes
    ensures var t1 := Run(s, [StartEvent, BindSucceeded(env), RecordingStarted]);
      var t3 := Run(t1.next, [StopEvent, RecordingFinalized(env), Destroyed]);
      && Run(t1.next, StatusEvents(bytes)) == Transition(t1.next, [])
      && ChunkNumbers(t1.effects) + ChunkNumbers([]) + ChunkNumbers(t3.effects) == [0]
      && multiset(t1.effects)[StopRequested] + multiset(t3.effects)[StopRequested] == 1
      && multiset(t1.effects)[BroadcastServiceStopped] + multiset(t3.effects)[BroadcastServiceStopped] == 1
      && t3.next.chunkIndex == 1 && !t3.next.isRecording
  {
    var t1 := Run(s, [StartEvent, BindSucceeded(env), RecordingStarted]);
    OpenSession(s, env);
    QuietStatusRun(t1.next, bytes);
    OpenThenClose(s, env);
  }

  /** Opening a session and closing it straight away, counted segment by segment. */
  lemma OpenThenClose(s: ServiceState, env: ChunkEnv)
    requires !s.isRecording && !env.securityException
    ensures var t1 := Run(s, [StartEvent, BindSucceeded(env), RecordingStarted]);
      var t3 := Run(t1.next, [StopEvent, RecordingFinalized(env), Destroyed]);
      && ChunkNumbers(t1.effects) + ChunkNumbers([]) + ChunkNumbers(t3.effects) == [0]
      && multiset(t1.effects)[StopRequested] + multiset(t3.effects)[StopRequested] == 1
      && multiset(t1.effects)[BroadcastServiceStopped] + multiset(t3.effects)[BroadcastServiceStopped] == 1
      && t3.next.chunkIndex == 1 && !t3.next.isRecording
  {
    var t1 := Run(s, [StartEvent, BindSucceeded(env), RecordingStarted]);
    OpenSession(s, env);
    var t3 := Run(t1.next, [StopEvent, RecordingFinalized(env), Destroyed]);
    CloseSession(t1.next, env);
    assert ChunkNumbers([]) == [];
    assert ChunkNumbers(t1.effects) + ChunkNumbers([]) + ChunkNumbers(t3.effects) == [0] + [] + [];
  }

  /** The effects of STOP, Finalize and onDestroy on a recording with no split pending, in order. */
  lemma CloseSessionSteps(s: ServiceState, env: ChunkEnv)
    requires s.isRecording && s.hasActiveRecording && !s.pendingSplit
    ensures Run(s, [StopEvent, RecordingFinalized(env), Destroyed])
         == Transition(s.(pendingSplit := false, hasActiveRecording := false, isRecording := false),
                       [StopRequested, StopSelf]
                       + [LifecycleDestroyed, BroadcastServiceStopped, ReleaseWakeLock, ShutdownExecutor])
  {
    var s1 := s.(pendingSplit := false, hasActiveRecording := false, isRecording := false);
    StopAndFinalize(s, env);
    DestroyIdle(s1);
    RunAppend(s, [StopEvent, RecordingFinalized(env)], [Destroyed]);
    assert [StopEvent, RecordingFinalized(env)] + [Destroyed] == [StopEvent, RecordingFinalized(env), Destroyed];
  }

  lemma StopAndFinalize(s: ServiceState, env: ChunkEnv)
    requires s.isRecording && s.hasActiveRecording && !s.pendingSplit
    ensures Run(s, [StopEvent, RecordingFinalized(env)])
         == Transition(s.(pendingSplit := false, hasActiveRecording := false, isRecording := false),
                       [StopRequested, StopSelf])
  {
    var s1 := s.(pendingSplit := false, hasActiveRecording := false, isRecording := false);
    assert Step(s, StopEvent) == Transition(s1, [StopRequested, StopSelf]) by {
      StepCommand(s, StopRecording);
      assert StopRecordingVideo(s) == Transition(s1, [StopRequested]);
      assert [StopRequested] + [StopSelf] == [StopRequested, StopSelf];
    }
    assert Step(s1, RecordingFinalized(env)) == Transition(s1, []) by {
      assert OnFinalize(s1, env) == Transition(s1, []);
    }
    RunTwo(s, StopEvent, RecordingFinalized(env));
  }

  lemma DestroyIdle(s: ServiceState)
    requires !s.isRecording
    ensures Run(s, [Destroyed])
         == Transition(s, [LifecycleDestroyed, BroadcastServiceStopped, ReleaseWakeLock, ShutdownExecutor])
  {
    var t := Step(s, Destroyed);
    assert t == Transition(s, [LifecycleDestroyed] + [] + [BroadcastServiceStopped, ReleaseWakeLock, ShutdownExecutor]) by {
      assert StopRecordingVideo(s) == Transition(s, []);
    }
    assert [Destroyed][1..] == [];
    assert Run(s, [Destroyed]) == Transition(Run(t.next, []).next, t.effects + Run(t.next, []).effects);
  }

  /** STOP, Finalize and onDestroy: one pipeline stop, one broadcast, no new chunk. */
  lemma CloseSession(s: ServiceState, env: ChunkEnv)
    requires s.isRecording && s.hasActiveRecording && !s.pendingSplit
    ensures var t := Run(s, [StopEvent, RecordingFinalized(env), Destroyed]);
      && ChunkNumbers(t.effects) == []
      && multiset(t.effects)[StopRequested] == 1
      && multiset(t.effects)[BroadcastServiceStopped] == 1
      && t.next.chunkIndex == s.chunkIndex && !t.next.isRecording
  {
    CloseSessionSteps(s, env);
    CloseEffects();
  }

  /** The effects of closing a session: one stop request, one broadcast, no chunk. */
  lemma CloseEffects()
    ensures var all := [StopRequested, StopSelf]
                       + [LifecycleDestroyed, BroadcastServiceStopped, ReleaseWakeLock, ShutdownExecutor];
      && ChunkNumbers(all) == []
      && multiset(all)[StopRequested] == 1
      && multiset(all)[BroadcastServiceStopped] == 1
  {
    var a: seq<ServiceEffect> := [StopRequested, StopSelf];
    var b: seq<ServiceEffect> := [LifecycleDestroyed, BroadcastServiceStopped, ReleaseWakeLock, ShutdownExecutor];
    assert multiset(a + b) == multiset(a) + multiset(b);
    assert multiset(a)[StopRequested] == 1 && multiset(a)[BroadcastServiceStopped] == 0;
    assert multiset(b)[StopRequested] == 0 && multiset(b)[BroadcastServiceStopped] == 1;
    NoAttemptNoNumbers(a + b);
  }

  /**
   * One split in the middle of a recording: the status at 4 GiB stops the
   * chunk, its Finalize starts the next one numbered one higher, and the
   * Start event finds the service recording again with the counters moved on.
   */
  lemma SplitMidSession(s: ServiceState, bytes: nat, env: ChunkEnv)
    requires s.isRecording && s.hasActiveRecording && !s.pendingSplit && s.captureRotation.Some?
    requires bytes >= MaxChunkBytes && !env.securityException
    ensures var t := Run(s, [RecordingStatus(bytes), RecordingFinalized(env), RecordingStarted]);
      && t.next == s.(chunkIndex := s.chunkIndex + 1)
      && ChunkNumbers(t.effects) == [s.chunkIndex]
      && multiset(t.effects)[StopRequested] == 1
      && BroadcastServiceStopped !in t.effects
  {
    var s1 := s.(pendingSplit := true, hasActiveRecording := false);
    SplitStep(s, bytes);
    RolloverStep(s1, env);
    var t1 := Step(s, RecordingStatus(bytes));
    var t2 := Step(t1.next, RecordingFinalized(env));
    StartedStep(t2.next);
    var t3 := Step(t2.next, RecordingStarted);
    RunThree(s, RecordingStatus(bytes), RecordingFinalized(env), RecordingStarted);
    StopThenChunk(t1.effects, t2.effects, t3.effects, s.chunkIndex);
  }

  lemma SplitStep(s: ServiceState, bytes: nat)
    requires s.hasActiveRecording && !s.pendingSplit && bytes >= MaxChunkBytes
    ensures Step(s, RecordingStatus(bytes))
         == Transition(s.(pendingSplit := true, hasActiveRecording := false), [StopRequested])
  {
  }

  lemma StartedStep(s: ServiceState)
    ensures Step(s, RecordingStarted) == Transition(s.(isRecording := true), [])
  {
  }

  /** The effects of a split: the stop, then the next chunk. */
  lemma StopThenChunk(stop: seq<ServiceEffect>, chunk: seq<ServiceEffect>, rest: seq<ServiceEffect>, k: nat)
    requires stop == [StopRequested] && rest == []
    requires |chunk| == 1 && chunk[0].StartChunk? && ChunkNumbers(chunk) == [k]
    ensures var all := stop + chunk + rest;
      ChunkNumbers(all) == [k] && multiset(all)[StopRequested] == 1 && BroadcastServiceStopped !in all
  {
    var all := stop + chunk + rest;
    assert all == [StopRequested, chunk[0]];
    ChunkNumbersAppend(stop, chunk);
    assert stop + chunk == all;
  }

  /** The Finalize of a split chunk: the next chunk starts, numbered with the current chunkIndex. */
  lemma RolloverStep(s: ServiceState, env: ChunkEnv)
    requires s.pendingSplit && s.captureRotation.Some? && !env.securityException
    ensures var t := Step(s, RecordingFinalized(env));
      && t.next == s.(isRecording := false, pendingSplit := false, hasActiveRecording := true,
                      chunkIndex := s.chunkIndex + 1)
      && |t.effects| == 1 && t.effects[0].StartChunk?
      && ChunkNumbers(t.effects) == [s.chunkIndex]
  {
    StartRecordingVideoNumbers(s.(isRecording := false, pendingSplit := false), env);
  }

  /**
   * The rest of a session that crosses 4 GiB once, from a chunk being
   * recorded: the chunk is split, the next one is numbered one higher, and
   * after STOP, Finalize and onDestroy the pipeline has been stopped twice
   * (the split and the STOP), the stop broadcast has gone out once and
   * chunkIndex has moved on by one. After OpenSession this is chunks 0 and 1.
   */
  lemma SplitSession(s: ServiceState, bytes: nat, env: ChunkEnv)
    requires s.isRecording && s.hasActiveRecording && !s.pendingSplit && s.captureRotation.Some?
    requires bytes >= MaxChunkBytes && !env.securityException
    ensures var t := Run(s, [RecordingStatus(bytes), RecordingFinalized(env), RecordingStarted]
                            + [StopEvent, RecordingFinalized(env), Destroyed]);
      && ChunkNumbers(t.effects) == [s.chunkIndex]
      && multiset(t.effects)[StopRequested] == 2
      && multiset(t.effects)[BroadcastServiceStopped] == 1
      && t.next.chunkIndex == s.chunkIndex + 1 && !t.next.isRecording
  {
    var split := [RecordingStatus(bytes), RecordingFinalized(env), RecordingStarted];
    var close := [StopEvent, RecordingFinalized(env), Destroyed];
    var t2 := Run(s, split);
    var t3 := Run(t2.next, close);
    SplitThenClose(s, bytes, env);
    RunAppend(s, split, close);
    ThreeParts(t2.effects, t3.effects, []);
    assert t2.effects + t3.effects + [] == t2.effects + t3.effects;
  }

  /** The two segments after the first chunk: one split, then STOP, Finalize and onDestroy. */
  lemma SplitThenClose(s: ServiceState, bytes: nat, env: ChunkEnv)
    requires s.isRecording && s.hasActiveRecording && !s.pendingSplit && s.captureRotation.Some?
    requires bytes >= MaxChunkBytes && !env.securityException
    ensures var t2 := Run(s, [RecordingStatus(bytes), RecordingFinalized(env), RecordingStarted]);
      var t3 := Run(t2.next, [StopEvent, RecordingFinalized(env), Destroyed]);
      && ChunkNumbers(t2.effects) + ChunkNumbers(t3.effects) == [s.chunkIndex]
      && multiset(t2.effects)[StopRequested] + multiset(t3.effects)[StopRequested] == 2
      && multiset(t2.effects)[BroadcastServiceStopped] + multiset(t3.effects)[BroadcastServiceStopped] == 1
      && t3.next.chunkIndex == s.chunkIndex + 1 && !t3.next.isRecording
  {
    SplitMidSession(s, bytes, env);
    CloseSession(s.(chunkIndex := s.chunkIndex + 1), env);
  }

  /**
   * A bind failure: the service asked for the camera, released it again and
   * stays idle; no chunk, no pipeline stop and no broadcast.
   */
  lemma BindFailureStaysIdle(s: ServiceState, defaultRotation: int)
    requires !s.isRecording
    ensures var t := Run(s, [StartEvent, BindFailed(defaultRotation)]);
      && t.effects == [RequestBind(s.pendingRotation), UnbindAll]
      && !t.next.isRecording && t.next.hasActiveRecording == s.hasActiveRecording
      && t.next.chunkIndex == 0 && !t.next.pendingSplit
  {
    RunTwo(s, StartEvent, BindFailed(defaultRotation));
    StartStep(s);
  }
}

=== FILE: date_utils.dfy ===
/**
 * DateUtils.getCurrentDate: the current date printed with the pattern
 * "dd_MM_yyyy". The clock is a parameter: the caller passes the calendar
 * fields of "now" in the default time zone.
 */
module DateUtils {
  import opened Optional
  import opened Decimal

  /** Day of month, month (January is 1) and year, as SimpleDateFormat reads them from a Date. */
  datatype CalendarDate = CalendarDate(day: nat, month: nat, year: nat)

  predicate IsCalendarDate(d: CalendarDate) {
    1 <= d.day <= 31 && 1 <= d.month <= 12 && d.year >= 1
  }

  const Separator: char := '_'

  /**
   * The pattern "dd_MM_yyyy": day and month zero-padded to two digits, the
   * year zero-padded to four, fields joined by '_'.
   */
  function FormatDate(d: CalendarDate): (r: string)
    ensures |r| >= 10
    ensures forall i :: 0 <= i < |r| ==> IsDigit(r[i]) || r[i] == Separator
    ensures d.day < 100 && d.month < 100 ==> r[2] == Separator && r[5] == Separator
  {
    PadTwo(d.day);
    PadTwo(d.month);
    PadLeft(d.day, 2) + [Separator] + PadLeft(d.month, 2) + [Separator] + PadLeft(d.year, 4)
  }

  /** A value below 100 pads to exactly two characters. */
  lemma PadTwo(n: nat)
    ensures n < 100 ==> |PadLeft(n, 2)| == 2
  {
    if n < 100 {
      DigitsBelow100(n);
    }
  }

  /** Reads a "dd_MM_yyyy" string back: three '_'-separated, non-empty digit fields. */
  function ParseDate(s: string): (r: Option<CalendarDate>)
    ensures r.Some? ==> |Split(s, Separator)| == 3
  {
    var parts := Split(s, Separator);
    if |parts| == 3
      && |parts[0]| > 0 && AllDigits(parts[0])
      && |parts[1]| > 0 && AllDigits(parts[1])
      && |parts[2]| > 0 && AllDigits(parts[2])
    then Some(CalendarDate(ParseNat(parts[0]), ParseNat(parts[1]), ParseNat(parts[2])))
    else None
  }

  /** Splitting the formatted date on '_' gives back exactly the three padded fields. */
  lemma SplitFormatDate(d: CalendarDate)
    ensures Split(FormatDate(d), Separator)
         == [PadLeft(d.day, 2), PadLeft(d.month, 2), PadLeft(d.year, 4)]
  {
    var dd, mm, yy := PadLeft(d.day, 2), PadLeft(d.month, 2), PadLeft(d.year, 4);
    DigitsHaveNoSeparator(dd, Separator);
    DigitsHaveNoSeparator(mm, Separator);
    DigitsHaveNoSeparator(yy, Separator);
    assert FormatDate(d) == dd + [Separator] + (mm + [Separator] + yy);
    SplitJoin(dd, Separator, mm + [Separator] + yy);
    SplitJoin(mm, Separator, yy);
    SplitWhole(yy, Separator);
  }

  /** Parsing the formatted text recovers the day, month and year it was made from. */
  lemma ParseFormatDate(d: CalendarDate)
    ensures ParseDate(FormatDate(d)) == Some(d)
  {
    SplitFormatDate(d);
    ParsePadLeft(d.day, 2);
    ParsePadLeft(d.month, 2);
    ParsePadLeft(d.year, 4);
  }

  /**
   * For a calendar date with a four-digit year the text is exactly ten
   * characters, "DD_MM_YYYY": two-digit day, '_', two-digit month, '_',
   * four-digit year.
   */
  lemma FormatDateLayout(d: CalendarDate)
    requires IsCalendarDate(d) && 1000 <= d.year <= 9999
    ensures var r := FormatDate(d);
      && |r| == 10
      && r[2] == '_' && r[5] == '_'
      && AllDigits(r[..2]) && AllDigits(r[3..5]) && AllDigits(r[6..])
      && ParseNat(r[..2]) == d.day && ParseNat(r[3..5]) == d.month && ParseNat(r[6..]) == d.year
  {
    DigitsBelow100(d.day);
    DigitsBelow100(d.month);
    DigitsFourDigitNumber(d.year);
    var r := FormatDate(d);
    var dd, mm, yy := PadLeft(d.day, 2), PadLeft(d.month, 2), PadLeft(d.year, 4);
    assert |dd| == 2 && |mm| == 2 && |yy| == 4;
    assert r[..2] == dd;
    assert r[3..5] == mm;
    assert r[6..] == yy;
    ParsePadLeft(d.day, 2);
    ParsePadLeft(d.month, 2);
    ParsePadLeft(d.year, 4);
  }
}

=== FILE: decimal.dfy ===
/**
 * Decimal text: how Kotlin string templates print a non-negative number,
 * zero-padded fields as SimpleDateFormat prints them, and the inverse
 * operations (splitting on a separator, parsing digits) used to state
 * round-trip properties of the names and dates the app builds.
 */
module Decimal {
  import opened Optional

  predicate IsDigit(c: char) {
    '0' <= c <= '9'
  }

  predicate AllDigits(s: string) {
    forall i :: 0 <= i < |s| ==> IsDigit(s[i])
  }

  function DigitValue(c: char): (d: nat)
    requires IsDigit(c)
    ensures d < 10
  {
    c as int - '0' as int
  }

  function DigitChar(d: nat): (c: char)
    requires d < 10
    ensures IsDigit(c) && DigitValue(c) == d
  {
    ('0' as int + d) as char
  }

  /** The shortest decimal rendering of n: no leading zero except for 0 itself. */
  function Digits(n: nat): (s: string)
    ensures 1 <= |s|
    ensures AllDigits(s)
    ensures |s| > 1 ==> s[0] != '0'
    decreases n
  {
    if n < 10 then [DigitChar(n)] else Digits(n / 10) + [DigitChar(n % 10)]
  }

  /** The value of a digit string, most significant digit first; "" is 0. */
  function ParseNat(s: string): nat
    requires AllDigits(s)
  {
    if |s| == 0 then 0 else ParseNat(s[..|s| - 1]) * 10 + DigitValue(s[|s| - 1])
  }

  function Zeros(k: nat): (s: string)
    ensures |s| == k && AllDigits(s)
    ensures forall i :: 0 <= i < k ==> s[i] == '0'
  {
    seq(k, _ => '0')
  }

  /** n zero-padded on the left to at least `width` characters (SimpleDateFormat's numeric fields). */
  function PadLeft(n: nat, width: nat): (s: string)
    ensures AllDigits(s)
    ensures |s| == if |Digits(n)| < width then width else |Digits(n)|
  {
    var d := Digits(n);
    if |d| < width then Zeros(width - |d|) + d else d
  }

  lemma {:induction false} ParseDigits(n: nat)
    ensures ParseNat(Digits(n)) == n
    decreases n
  {
    if n >= 10 {
      var s := Digits(n);
      assert s[..|s| - 1] == Digits(n / 10);
      ParseDigits(n / 10);
    } else {
      assert Digits(n)[..0] == [];
    }
  }

  lemma {:induction false} ParseZeros(k: nat)
    ensures ParseNat(Zeros(k)) == 0
  {
    if k > 0 {
      assert Zeros(k)[..k - 1] == Zeros(k - 1);
      ParseZeros(k - 1);
    }
  }

  /** Leading zeros do not change the value of a digit string. */
  lemma {:induction false} ParseZerosPrefix(k: nat, s: string)
    requires AllDigits(s)
    ensures AllDigits(Zeros(k) + s)
    ensures ParseNat(Zeros(k) + s) == ParseNat(s)
    decreases |s|
  {
    var t := Zeros(k) + s;
    assert forall i :: 0 <= i < |t| ==> IsDigit(t[i]) by {
      forall i | 0 <= i < |t| ensures IsDigit(t[i]) {
        if i < k { assert t[i] == Zeros(k)[i]; } else { assert t[i] == s[i - k]; }
      }
    }
    if |s| == 0 {
      assert t == Zeros(k);
      ParseZeros(k);
    } else {
      assert t[..|t| - 1] == Zeros(k) + s[..|s| - 1];
      ParseZerosPrefix(k, s[..|s| - 1]);
    }
  }

  /** Padding is undone by parsing. */
  lemma ParsePadLeft(n: nat, width: nat)
    ensures ParseNat(PadLeft(n, width)) == n
  {
    var d := Digits(n);
    ParseDigits(n);
    if |d| < width {
      ParseZerosPrefix(width - |d|, d);
    }
  }

  lemma DigitsBelow100(n: nat)
    requires n < 100
    ensures |Digits(n)| <= 2
  {
    if n >= 10 {
      assert |Digits(n / 10)| == 1;
    }
  }

  lemma DigitsFourDigitNumber(n: nat)
    requires 1000 <= n <= 9999
    ensures |Digits(n)| == 4
  {
    assert |Digits(n / 1000)| == 1;
    assert Digits(n / 100) == Digits(n / 1000) + [DigitChar((n / 100) % 10)];
    assert Digits(n / 10) == Digits(n / 100) + [DigitChar((n / 10) % 10)];
  }

  /** The first position of c in s, the way String.indexOf finds it. */
  function IndexOf(s: string, c: char): (r: Option<nat>)
    ensures r.Some? ==> r.value < |s| && s[r.value] == c && c !in s[..r.value]
    ensures r.None? <==> c !in s
  {
    if |s| == 0 then None
    else if s[0] == c then Some(0)
    else match IndexOf(s[1..], c)
      case None => None
      case Some(i) => Some(i + 1)
  }

  /** Kotlin's `s.split(sep)` for a one-character separator: every field, empty ones included. */
  function Split(s: string, sep: char): (parts: seq<string>)
    ensures |parts| >= 1
    ensures forall i :: 0 <= i < |parts| ==> sep !in parts[i]
    decreases |s|
  {
    match IndexOf(s, sep)
    case None => [s]
    case Some(i) => [s[..i]] + Split(s[i + 1..], sep)
  }

  /** Splitting undoes joining: a separator-free field followed by the separator comes off first. */
  lemma SplitJoin(a: string, sep: char, rest: string)
    requires sep !in a
    ensures Split(a + [sep] + rest, sep) == [a] + Split(rest, sep)
  {
    var s := a + [sep] + rest;
    assert s[|a|] == sep;
    assert s[..|a|] == a;
    assert IndexOf(s, sep) == Some(|a|);
    assert s[..|a|] == a;
    assert s[|a| + 1..] == rest;
  }

  /** The first two fields of a joined string come back from splitting it. */
  lemma SplitTwoFields(a: string, b: string, rest: string, sep: char)
    requires sep !in a && sep !in b
    ensures var parts := Split(a + [sep] + (b + [sep] + rest), sep);
      |parts| >= 3 && parts[0] == a && parts[1] == b
  {
    SplitJoin(a, sep, b + [sep] + rest);
    SplitJoin(b, sep, rest);
  }

  /** The first three fields of a joined string come back from splitting it. */
  lemma SplitThreeFields(a: string, b: string, c: string, rest: string, sep: char)
    requires sep !in a && sep !in b && sep !in c
    ensures var parts := Split(a + [sep] + (b + [sep] + (c + [sep] + rest)), sep);
      |parts| >= 3 && parts[0] == a && parts[1] == b && parts[2] == c
  {
    SplitJoin(a, sep, b + [sep] + (c + [sep] + rest));
    SplitJoin(b, sep, c + [sep] + rest);
    SplitJoin(c, sep, rest);
  }

  lemma SplitWhole(a: string, sep: char)
    requires sep !in a
    ensures Split(a, sep) == [a]
  {
  }

  lemma DigitsHaveNoSeparator(s: string, sep: char)
    requires AllDigits(s)
    requires !IsDigit(sep)
    ensures sep !in s
  {
  }
}

=== FILE: main_activity.dfy ===
/**
 * MainActivity: the photo/video mode switch and the three buttons that drive
 * the recording service, the orientation bucketing sent to the service, and
 * the permission decisions. Widget updates, toasts and CameraX preview
 * binding are left to the platform; what the activity asks of it is listed
 * as effects.
 */
module MainActivity {
  import opened Optional
  import opened Android
  import opened CameraService
  import MediaUtils

  datatype UiState = UiState(isPhotoMode: bool, isRecording: bool, isFlashOn: bool)

  /** The fields as the activity is created: video mode, idle, torch off. */
  const InitialUi := UiState(false, false, false)

  /**
   * What capturePhoto reads from outside: whether the activity's preview
   * currently holds an ImageCapture, the clock, the date and the SDK level.
   */
  datatype PhotoEnv = PhotoEnv(imageCaptureReady: bool, millis: nat, date: string, sdkInt: int)

  datatype UiEffect =
    | Send(command: Command, foreground: bool)  // startService / ContextCompat.startForegroundService
    | PhotoTorch(on: bool)                      // toggleFlashForPhoto
    | TakePhoto(values: ContentValues)          // capturePhoto
    | LockOrientation
    | UnlockOrientation
    | ReleasePreview                            // stopPreviewInActivity
    | StartPreview                              // startPreviewInActivity
    | RequestPermissions(permissions: seq<string>, requestCode: int)
    | Finish

  datatype UiStep = UiStep(next: UiState, effects: seq<UiEffect>)

  const RequestCodePermissions: int := 10
  const ActivityPhotoPath := "Pictures/CameraX-Photos"

  // ---------------------------------------------------------------------
  // Buttons

  /**
   * btnFlash. Photo mode: flip the torch locally. Video mode: only while
   * recording, flip the torch and tell the service; otherwise nothing.
   */
  function OnFlashClick(s: UiState): (r: UiStep)
    ensures r.next.isPhotoMode == s.isPhotoMode && r.next.isRecording == s.isRecording
    ensures s.isPhotoMode ==> r.next.isFlashOn == !s.isFlashOn && r.effects == [PhotoTorch(!s.isFlashOn)]
    ensures !s.isPhotoMode && !s.isRecording ==> r == UiStep(s, [])
    ensures !s.isPhotoMode && s.isRecording ==>
              r.next.isFlashOn == !s.isFlashOn && r.effects == [Send(ToggleFlash, false)]
  {
    if s.isPhotoMode then
      UiStep(s.(isFlashOn := !s.isFlashOn), [PhotoTorch(!s.isFlashOn)])
    else if !s.isRecording then
      UiStep(s, [])
    else
      UiStep(s.(isFlashOn := !s.isFlashOn), [Send(ToggleFlash, false)])
  }

  /** The ContentValues capturePhoto builds (its own folder, not MediaUtils'). */
  function PhotoContentValues(env: PhotoEnv): (r: ContentValues)
    ensures r.Keys == {DisplayNameColumn, MimeTypeColumn}
              + (if env.sdkInt >= VersionQ then {RelativePathColumn} else {})
    ensures var name := r[DisplayNameColumn];
      |name| >= 11 + |Decimal.Digits(env.millis)| && name[..6] == "photo_" && name[|name| - 4..] == ".jpg"
      && name[6..6 + |Decimal.Digits(env.millis)|] == Decimal.Digits(env.millis)
    ensures r[DisplayNameColumn] == MediaUtils.MediaDisplayName(true, env.millis, env.date)
    ensures r[MimeTypeColumn] == "image/jpeg"
    ensures env.sdkInt >= VersionQ ==> r[RelativePathColumn] == ActivityPhotoPath
  {
    var base := map[DisplayNameColumn := "photo_" + Decimal.Digits(env.millis) + "_" + env.date + ".jpg",
                    MimeTypeColumn := "image/jpeg"];
    if env.sdkInt >= VersionQ then base[RelativePathColumn := ActivityPhotoPath] else base
  }
  /**
   * Two photos the activity takes get the same display name only when they
   * are taken at the same millisecond on the same date.
   */
  lemma PhotoNameIdentifiesCapture(e1: PhotoEnv, e2: PhotoEnv)
    ensures PhotoContentValues(e1)[DisplayNameColumn] == PhotoContentValues(e2)[DisplayNameColumn]
        <==> e1.millis == e2.millis && e1.date == e2.date
  {
    MediaUtils.MediaNameIdentifiesCapture(true, e1.millis, e1.date, true, e2.millis, e2.date);
  }


  /** capturePhoto: nothing without an ImageCapture, otherwise one picture request. */
  function CapturePhoto(env: PhotoEnv): (r: seq<UiEffect>)
    ensures !env.imageCaptureReady ==> r == []
    ensures env.imageCaptureReady ==>
              (|r| == 1 && r[0].TakePhoto? && MimeTypeColumn in r[0].values
               && r[0].values[MimeTypeColumn] == "image/jpeg"
               && (RelativePathColumn in r[0].values <==> env.sdkInt >= VersionQ))
    ensures env.imageCaptureReady ==>
              DisplayNameColumn in r[0].values
              && r[0].values[DisplayNameColumn] == MediaUtils.MediaDisplayName(true, env.millis, env.date)
              && (env.sdkInt >= VersionQ ==> r[0].values[RelativePathColumn] == ActivityPhotoPath)
  {
    if env.imageCaptureReady then [TakePhoto(PhotoContentValues(env))] else []
  }

  /**
   * btnCapture. Photo mode: take a picture, no flag changes. Video mode:
   * start (lock orientation, release the preview, start the service in the
   * foreground) or stop (torch forced off, orientation unlocked).
   */
  function OnCaptureClick(s: UiState, env: PhotoEnv): (r: UiStep)
    ensures s.isPhotoMode ==> r.next == s && r.effects == CapturePhoto(env)
    ensures !s.isPhotoMode ==> r.next.isRecording == !s.isRecording && !r.next.isPhotoMode
    ensures !s.isPhotoMode && !s.isRecording ==>
              r.next.isFlashOn == s.isFlashOn && Send(StartRecording, true) in r.effects
              && Send(StopRecording, false) !in r.effects
    ensures !s.isPhotoMode && s.isRecording ==>
              !r.next.isFlashOn && Send(StopRecording, false) in r.effects
              && Send(StartRecording, true) !in r.effects
  {
    if s.isPhotoMode then
      UiStep(s, CapturePhoto(env))
    else if !s.isRecording then
      UiStep(s.(isRecording := true), [LockOrientation, ReleasePreview, Send(StartRecording, true)])
    else
      UiStep(s.(isFlashOn := false, isRecording := false), [Send(StopRecording, false), UnlockOrientation])
  }

  /**
   * btnToggleMode: stop the service if recording, put the torch out (locally
   * only in photo mode), switch mode.
   */
  function OnToggleModeClick(s: UiState): (r: UiStep)
    ensures r.next == UiState(!s.isPhotoMode, false, false)
    ensures Send(StopRecording, false) in r.effects <==> s.isRecording
    ensures PhotoTorch(false) in r.effects <==> s.isPhotoMode && s.isFlashOn
    ensures |r.effects| <= 2
  {
    var stop := if s.isRecording then [Send(StopRecording, false)] else [];
    var torch := if s.isFlashOn && s.isPhotoMode then [PhotoTorch(false)] else [];
    UiStep(UiState(!s.isPhotoMode, false, false), stop + torch)
  }

  // ---------------------------------------------------------------------
  // Orientation

  /** orientationToSurfaceRotation: the nearest quarter turn of a 0..359 degree reading. */
  function OrientationToSurfaceRotation(orientation: int): (r: int)
    ensures IsSurfaceRotation(r)
    ensures (0 <= orientation <= 44 || 315 <= orientation <= 359) ==> r == Rotation0
    ensures 45 <= orientation <= 134 ==> r == Rotation90
    ensures 135 <= orientation <= 224 ==> r == Rotation180
    ensures 225 <= orientation <= 314 ==> r == Rotation270
    ensures !(0 <= orientation <= 359) ==> r == Rotation0
  {
    if 315 <= orientation <= 359 || 0 <= orientation <= 44 then Rotation0
    else if 45 <= orientation <= 134 then Rotation90
    else if 135 <= orientation <= 224 then Rotation180
    else if 225 <= orientation <= 314 then Rotation270
    else Rotation0
  }

  /** onOrientationChanged: unknown readings are dropped; others send the bucket to the service. */
  function OnOrientationChanged(orientation: int): (r: seq<UiEffect>)
    ensures orientation == OrientationUnknown ==> r == []
    ensures orientation != OrientationUnknown ==>
              r == [Send(RotationChanged(OrientationToSurfaceRotation(orientation)), false)]
  {
    if orientation == OrientationUnknown then []
    else [Send(RotationChanged(OrientationToSurfaceRotation(orientation)), false)]
  }

  /**
   * The rotation the service ends up holding for a reading: the bucket,
   * mirrored by the service's remap, always a surface rotation, and the
   * reading's mirror image (360 - o) lands on the bucket itself.
   */
  lemma OrientationReachesService(s: ServiceState, orientation: int)
    requires orientation != OrientationUnknown
    ensures var sent := OnOrientationChanged(orientation)[0].command;
      var t := Step(s, StartCommand(IntentFor(sent)));
      && IsSurfaceRotation(t.next.pendingRotation)
      && t.next.pendingRotation == RemapRotation(OrientationToSurfaceRotation(orientation))
      && t.effects == []
  {
    var sent := OnOrientationChanged(orientation)[0].command;
    CommandOfIntentFor(sent);
  }

  /** Readings 360 - o and o fall in mirrored buckets, which is the service's remap. */
  lemma MirroredReadingsRemap(orientation: int)
    requires 1 <= orientation <= 359
    requires orientation % 45 != 0
    ensures OrientationToSurfaceRotation(360 - orientation)
         == RemapRotation(OrientationToSurfaceRotation(orientation))
  {
  }

  // ---------------------------------------------------------------------
  // Permissions

  /** getRequiredPermissions: storage access only before Android 10. */
  function RequiredPermissions(sdkInt: int): (r: seq<string>)
    ensures PermissionCamera in r && PermissionRecordAudio in r
    ensures PermissionWriteExternalStorage in r <==> sdkInt < VersionQ
    ensures r[..2] == [PermissionCamera, PermissionRecordAudio]
  {
    [PermissionCamera, PermissionRecordAudio]
      + (if sdkInt < VersionQ then [PermissionWriteExternalStorage] else [])
  }

  /** onCreate: request what is missing, or start the photo preview at once. */
  function OnLaunch(sdkInt: int, granted: set<string>): (r: seq<UiEffect>)
    ensures r == [StartPreview] <==> forall p :: p in RequiredPermissions(sdkInt) ==> p in granted
    ensures r != [StartPreview] ==> r == [RequestPermissions(RequiredPermissions(sdkInt), RequestCodePermissions)]
  {
    var perms := RequiredPermissions(sdkInt);
    if forall p :: p in perms ==> p in granted then [StartPreview]
    else [RequestPermissions(perms, RequestCodePermissions)]
  }

  /**
   * onRequestPermissionsResult: for this request code, any denial finishes
   * the activity and otherwise the preview starts (an empty result included).
   */
  function OnPermissionsResult(requestCode: int, grantResults: seq<int>): (r: seq<UiEffect>)
    ensures requestCode != RequestCodePermissions ==> r == []
    ensures requestCode == RequestCodePermissions ==>
              (r == [Finish] <==> exists i :: 0 <= i < |grantResults| && grantResults[i] == PermissionDenied)
    ensures requestCode == RequestCodePermissions && r != [Finish] ==> r == [StartPreview]
  {
    if requestCode != RequestCodePermissions then []
    else if exists i :: 0 <= i < |grantResults| && grantResults[i] == PermissionDenied then [Finish]
    else [StartPreview]
  }

  /** serviceStoppedReceiver: the camera comes back to the activity's preview. */
  function OnServiceStopped(action: string): (r: seq<UiEffect>)
    ensures r == [StartPreview] <==> action == ActionServiceStopped
    ensures r != [StartPreview] ==> r == []
  {
    if action == ActionServiceStopped then [StartPreview] else []
  }

  /**
   * What the activity makes of the service's calls: serviceStoppedReceiver is
   * registered in onResume and unregistered in onPause, so a SERVICE_STOPPED
   * broadcast reaches it only while the activity is resumed.
   */
  function Delivered(resumed: bool, effects: seq<ServiceEffect>): seq<UiEffect>
    decreases |effects|
  {
    if |effects| == 0 then []
    else (if resumed && effects[0] == BroadcastServiceStopped then OnServiceStopped(ActionServiceStopped) else [])
         + Delivered(resumed, effects[1..])
  }

  lemma {:induction false} DeliveredAppend(resumed: bool, a: seq<ServiceEffect>, b: seq<ServiceEffect>)
    ensures Delivered(resumed, a + b) == Delivered(resumed, a) + Delivered(resumed, b)
    decreases |a|
  {
    if |a| > 0 {
      var head := if resumed && a[0] == BroadcastServiceStopped then OnServiceStopped(ActionServiceStopped) else [];
      assert (a + b)[0] == a[0];
      assert (a + b)[1..] == a[1..] + b;
      assert Delivered(resumed, a + b) == head + Delivered(resumed, a[1..] + b);
      DeliveredAppend(resumed, a[1..], b);
      assert Delivered(resumed, a) == head + Delivered(resumed, a[1..]);
    } else {
      assert a + b == b;
    }
  }

  lemma {:induction false} DeliveredNoBroadcast(resumed: bool, effects: seq<ServiceEffect>)
    requires BroadcastServiceStopped !in effects
    ensures Delivered(resumed, effects) == []
    decreases |effects|
  {
    if |effects| > 0 {
      assert effects[0] in effects;
      assert forall e :: e in effects[1..] ==> e in effects;
      DeliveredNoBroadcast(resumed, effects[1..]);
    }
  }

  /**
   * Whatever state the service is destroyed in, the activity restarts its
   * preview exactly once if it is resumed, and not at all if it is paused.
   */
  lemma DestroyHandsCameraBack(s: ServiceState, resumed: bool)
    ensures Delivered(resumed, OnDestroy(s).effects) == (if resumed then [StartPreview] else [])
  {
    var stops := StopRecordingVideo(s).effects;
    assert OnDestroy(s).effects
        == [LifecycleDestroyed] + stops + [BroadcastServiceStopped, ReleaseWakeLock, ShutdownExecutor];
    DeliveredDestroyShape(resumed, stops);
  }

  /** onDestroy's calls with any stop requests in the middle: one broadcast, near the end. */
  lemma DeliveredDestroyShape(resumed: bool, stops: seq<ServiceEffect>)
    requires forall e :: e in stops ==> e == StopRequested
    ensures Delivered(resumed, [LifecycleDestroyed] + stops + [BroadcastServiceStopped, ReleaseWakeLock, ShutdownExecutor])
         == (if resumed then [StartPreview] else [])
  {
    var tail: seq<ServiceEffect> := [BroadcastServiceStopped, ReleaseWakeLock, ShutdownExecutor];
    DeliveredAppend(resumed, [LifecycleDestroyed] + stops, tail);
    DeliveredAppend(resumed, [LifecycleDestroyed], stops);
    DeliveredNoBroadcast(resumed, stops);
    DeliveredNoBroadcast(resumed, [LifecycleDestroyed]);
    assert tail == [BroadcastServiceStopped] + [ReleaseWakeLock, ShutdownExecutor];
    DeliveredAppend(resumed, [BroadcastServiceStopped], [ReleaseWakeLock, ShutdownExecutor]);
    DeliveredNoBroadcast(resumed, [ReleaseWakeLock, ShutdownExecutor]);
    assert Delivered(resumed, [BroadcastServiceStopped])
        == (if resumed then [StartPreview] else []) + Delivered(resumed, []);
  }

  // ---------------------------------------------------------------------
  // Runs of button presses

  datatype UiEvent =
    | FlashClick
    | CaptureClick(env: PhotoEnv)
    | ToggleModeClick
    | OrientationChanged(orientation: int)

  function UiStepOf(s: UiState, e: UiEvent): UiStep {
    match e
    case FlashClick => OnFlashClick(s)
    case CaptureClick(env) => OnCaptureClick(s, env)
    case ToggleModeClick => OnToggleModeClick(s)
    case OrientationChanged(o) => UiStep(s, OnOrientationChanged(o))
  }

  function RunUi(s: UiState, events: seq<UiEvent>): UiStep
    decreases |events|
  {
    if |events| == 0 then UiStep(s, [])
    else
      var first := UiStepOf(s, events[0]);
      var rest := RunUi(first.next, events[1..]);
      UiStep(rest.next, first.effects + rest.effects)
  }

  /**
   * What the activity keeps true between presses: it never records in photo
   * mode, and in video mode the torch is only on while recording.
   */
  predicate UiInvariant(s: UiState) {
    (s.isRecording ==> !s.isPhotoMode) && (s.isFlashOn && !s.isPhotoMode ==> s.isRecording)
  }

  /** The Start/Stop commands sent, in order: true for START, false for STOP. */
  function RecordingCommands(effects: seq<UiEffect>): seq<bool> {
    if |effects| == 0 then []
    else (match effects[0]
          case Send(StartRecording, _) => [true]
          case Send(StopRecording, _) => [false]
          case _ => [])
         + RecordingCommands(effects[1..])
  }

  /** Starting from `recording`, each command flips it: START only when idle, STOP only when recording. */
  predicate AlternatesFrom(recording: bool, commands: seq<bool>)
    decreases |commands|
  {
    |commands| == 0 || (commands[0] == !recording && AlternatesFrom(commands[0], commands[1..]))
  }

  function LastOr(recording: bool, commands: seq<bool>): bool {
    if |commands| == 0 then recording else commands[|commands| - 1]
  }

  lemma {:induction false} RecordingCommandsAppend(a: seq<UiEffect>, b: seq<UiEffect>)
    ensures RecordingCommands(a + b) == RecordingCommands(a) + RecordingCommands(b)
    decreases |a|
  {
    if |a| == 0 {
      assert a + b == b;
    } else {
      assert (a + b)[0] == a[0];
      assert (a + b)[1..] == a[1..] + b;
      RecordingCommandsAppend(a[1..], b);
    }
  }

  lemma {:induction false} AlternatesAppend(r: bool, a: seq<bool>, b: seq<bool>)
    requires AlternatesFrom(r, a) && AlternatesFrom(LastOr(r, a), b)
    ensures AlternatesFrom(r, a + b)
    ensures LastOr(r, a + b) == LastOr(LastOr(r, a), b)
    decreases |a|
  {
    if |a| == 0 {
      assert a + b == b;
    } else {
      assert (a + b)[0] == a[0];
      assert (a + b)[1..] == a[1..] + b;
      assert LastOr(a[0], a[1..]) == LastOr(r, a);
      AlternatesAppend(a[0], a[1..], b);
    }
  }

  /** One press keeps the invariant, and the commands it sends agree with isRecording. */
  lemma UiStepAlternates(s: UiState, e: UiEvent)
    requires UiInvariant(s)
    ensures var r := UiStepOf(s, e);
      UiInvariant(r.next)
      && AlternatesFrom(s.isRecording, RecordingCommands(r.effects))
      && r.next.isRecording == LastOr(s.isRecording, RecordingCommands(r.effects))
  {
    var r := UiStepOf(s, e);
    match e {
      case FlashClick =>
        assert RecordingCommands(r.effects) == [];
      case CaptureClick(env) =>
        if s.isPhotoMode {
          assert RecordingCommands(r.effects) == [];
        } else if !s.isRecording {
          assert RecordingCommands(r.effects) == [true];
        } else {
          assert RecordingCommands(r.effects) == [false];
        }
      case ToggleModeClick =>
        var stop := if s.isRecording then [Send(StopRecording, false)] else [];
        var torch := if s.isFlashOn && s.isPhotoMode then [PhotoTorch(false)] else [];
        RecordingCommandsAppend(stop, torch);
        assert RecordingCommands(torch) == [];
      case OrientationChanged(o) =>
        assert RecordingCommands(r.effects) == [];
    }
  }

  /**
   * Over any run of presses from a consistent state, the START and STOP
   * commands the service receives strictly alternate, beginning with the one
   * that fits the current state, and isRecording ends equal to "the last
   * command was START".
   */
  lemma {:induction false} RunUiAlternates(s: UiState, events: seq<UiEvent>)
    requires UiInvariant(s)
    ensures var r := RunUi(s, events);
      UiInvariant(r.next)
      && AlternatesFrom(s.isRecording, RecordingCommands(r.effects))
      && r.next.isRecording == LastOr(s.isRecording, RecordingCommands(r.effects))
    decreases |events|
  {
    if |events| > 0 {
      var first := UiStepOf(s, events[0]);
      UiStepAlternates(s, events[0]);
      RunUiAlternates(first.next, events[1..]);
      var rest := RunUi(first.next, events[1..]);
      RecordingCommandsAppend(first.effects, rest.effects);
      AlternatesAppend(s.isRecording, RecordingCommands(first.effects), RecordingCommands(rest.effects));
    }
  }

  /** From launch, the first recording command is START and they alternate thereafter. */
  lemma FromLaunchStartComesFirst(events: seq<UiEvent>)
    ensures var r := RunUi(InitialUi, events);
      AlternatesFrom(false, RecordingCommands(r.effects))
      && (|RecordingCommands(r.effects)| > 0 ==> RecordingCommands(r.effects)[0])
  {
    RunUiAlternates(InitialUi, events);
  }
}

=== FILE: media_store_volumes.dfy ===
/**
 * MediaStoreVolumes: which MediaStore volume a photo or video goes to when
 * the user picked removable storage. The StorageManager volume list and the
 * SDK level are parameters.
 */
module MediaStoreVolumes {
  import opened Optional
  import opened Android

  /** A StorageVolume as the app reads it: uuid (null for the primary volume), removable, primary. */
  datatype StorageVolume = StorageVolume(uuid: Option<string>, isRemovable: bool, isPrimary: bool)

  predicate IsSdCard(v: StorageVolume) {
    v.isRemovable && !v.isPrimary
  }

  /** `storageVolumes.firstOrNull { it.isRemovable && !it.isPrimary }`, as an index. */
  function FirstSdCard(volumes: seq<StorageVolume>): (r: Option<nat>)
    ensures r.Some? ==> r.value < |volumes| && IsSdCard(volumes[r.value])
    ensures r.Some? ==> forall j :: 0 <= j < r.value ==> !IsSdCard(volumes[j])
    ensures r.None? ==> forall j :: 0 <= j < |volumes| ==> !IsSdCard(volumes[j])
  {
    if |volumes| == 0 then None
    else if IsSdCard(volumes[0]) then Some(0)
    else match FirstSdCard(volumes[1..])
      case None => None
      case Some(i) => Some(i + 1)
  }

  /**
   * getSdCardMediaStoreVolumeName: null before Android 10; otherwise the uuid
   * of the first removable, non-primary volume, null when there is none.
   */
  function SdCardVolumeName(sdkInt: int, volumes: seq<StorageVolume>): (r: Option<string>)
    ensures sdkInt < VersionQ ==> r.None?
    ensures r.Some? ==>
      exists i :: 0 <= i < |volumes| && volumes[i].uuid == r
        && volumes[i].isRemovable && !volumes[i].isPrimary
        && forall j :: 0 <= j < i ==> !IsSdCard(volumes[j])
    ensures sdkInt >= VersionQ && (forall j :: 0 <= j < |volumes| ==> !IsSdCard(volumes[j])) ==> r.None?
    ensures sdkInt >= VersionQ ==>
      forall i :: 0 <= i < |volumes| && IsSdCard(volumes[i]) && (forall j :: 0 <= j < i ==> !IsSdCard(volumes[j]))
        ==> r == volumes[i].uuid
  {
    if sdkInt < VersionQ then None
    else match FirstSdCard(volumes)
      case None => None
      case Some(i) => volumes[i].uuid
  }

  /** A primary volume is never chosen, removable or not. */
  lemma PrimaryNeverSelected(volumes: seq<StorageVolume>, i: nat)
    requires i < |volumes| && volumes[i].isPrimary
    ensures FirstSdCard(volumes) != Some(i)
  {
  }

  datatype MediaCollection = Images | Video

  /** A MediaStore collection URI: `content://media/<volume>/<images|video>/media`. */
  datatype MediaUri = MediaUri(volume: string, collection: MediaCollection)

  /** MediaStore.VOLUME_EXTERNAL_PRIMARY and MediaStore.VOLUME_EXTERNAL. */
  const VolumeExternalPrimary := "external_primary"
  const VolumeExternal := "external"

  /** The volume both URI helpers resolve to. */
  function SdVolumeOrPrimary(sdkInt: int, volumes: seq<StorageVolume>): (v: string)
    requires sdkInt >= VersionQ
    ensures SdCardVolumeName(sdkInt, volumes).None? ==> v == VolumeExternalPrimary
    ensures SdCardVolumeName(sdkInt, volumes).Some? ==> v == SdCardVolumeName(sdkInt, volumes).value
  {
    SdCardVolumeName(sdkInt, volumes).GetOr(VolumeExternalPrimary)
  }

  /**
   * getImagesVolumeUriForSd: on Android 10 and later the SD card's Images
   * collection, else the primary volume's; before, EXTERNAL_CONTENT_URI.
   */
  function ImagesVolumeUri(sdkInt: int, volumes: seq<StorageVolume>): (u: MediaUri)
    ensures u.collection == Images
    ensures sdkInt < VersionQ ==> u.volume == VolumeExternal
    ensures sdkInt >= VersionQ && SdCardVolumeName(sdkInt, volumes).None? ==> u.volume == VolumeExternalPrimary
  {
    if sdkInt >= VersionQ then MediaUri(SdVolumeOrPrimary(sdkInt, volumes), Images)
    else MediaUri(VolumeExternal, Images)
  }

  /** getVideosVolumeUriForSd: the same choice for the Video collection. */
  function VideosVolumeUri(sdkInt: int, volumes: seq<StorageVolume>): (u: MediaUri)
    ensures u.collection == Video
    ensures sdkInt < VersionQ ==> u.volume == VolumeExternal
    ensures sdkInt >= VersionQ && SdCardVolumeName(sdkInt, volumes).None? ==> u.volume == VolumeExternalPrimary
  {
    if sdkInt >= VersionQ then MediaUri(SdVolumeOrPrimary(sdkInt, volumes), Video)
    else MediaUri(VolumeExternal, Video)
  }

  /** Photos and videos always land on the same volume. */
  lemma ImagesAndVideosShareVolume(sdkInt: int, volumes: seq<StorageVolume>)
    ensures ImagesVolumeUri(sdkInt, volumes).volume == VideosVolumeUri(sdkInt, volumes).volume
  {
  }

  /**
   * On Android 10 and later the first SD card decides both helpers: its
   * uuid when it has one, the primary volume when its uuid is null.
   */
  lemma SdCardUsedWhenPresent(sdkInt: int, volumes: seq<StorageVolume>, i: nat)
    requires sdkInt >= VersionQ
    requires i < |volumes| && IsSdCard(volumes[i])
    requires forall j :: 0 <= j < i ==> !IsSdCard(volumes[j])
    ensures volumes[i].uuid.Some? ==>
              ImagesVolumeUri(sdkInt, volumes) == MediaUri(volumes[i].uuid.value, Images)
              && VideosVolumeUri(sdkInt, volumes) == MediaUri(volumes[i].uuid.value, Video)
    ensures volumes[i].uuid.None? ==>
              ImagesVolumeUri(sdkInt, volumes) == MediaUri(VolumeExternalPrimary, Images)
              && VideosVolumeUri(sdkInt, volumes) == MediaUri(VolumeExternalPrimary, Video)
  {
  }
}

=== FILE: media_utils.dfy ===
/**
 * MediaUtils: the MediaStore entry for a new photo or video, the buffered
 * stream copy, and find-or-create of the app's folder inside a
 * user-chosen document tree. The clock, the date and the SDK level are
 * parameters; streams and documents are abstract values.
 */
module MediaUtils {
  import opened Optional
  import opened Decimal
  import opened Android

  const ImageType := "image"
  const PhotoPath := "Pictures/Camy-Pictures"
  const VideoPath := "Movies/Camy-Videos"
  const JpegMime := "image/jpeg"
  const Mp4Mime := "video/mp4"

  /** "photo_{millis}_{date}.jpg" or "video_{millis}_{date}.mp4". */
  function MediaDisplayName(isImage: bool, millis: nat, date: string): (r: string)
    ensures |r| >= 12
    ensures r[..6] == (if isImage then "photo_" else "video_")
    ensures r[|r| - 4..] == (if isImage then ".jpg" else ".mp4")
  {
    (if isImage then "photo" else "video") + "_" + Digits(millis) + "_" + date
      + (if isImage then ".jpg" else ".mp4")
  }

  /**
   * createMediaContentValues: anything but "image" is treated as a video.
   * RELATIVE_PATH is only put on Android 10 and later.
   */
  function CreateMediaContentValues(mediaType: string, millis: nat, date: string, sdkInt: int)
    : (r: ContentValues)
    ensures r.Keys == {DisplayNameColumn, MimeTypeColumn}
                      + (if sdkInt >= VersionQ then {RelativePathColumn} else {})
    ensures r[DisplayNameColumn] == MediaDisplayName(mediaType == ImageType, millis, date)
    ensures r[MimeTypeColumn] == (if mediaType == ImageType then JpegMime else Mp4Mime)
    ensures RelativePathColumn in r ==>
              r[RelativePathColumn] == (if mediaType == ImageType then PhotoPath else VideoPath)
  {
    var isImage := mediaType == ImageType;
    var base := map[DisplayNameColumn := MediaDisplayName(isImage, millis, date),
                    MimeTypeColumn := if isImage then JpegMime else Mp4Mime];
    if sdkInt >= VersionQ then base[RelativePathColumn := if isImage then PhotoPath else VideoPath]
    else base
  }

  /** The timestamp can be read back from the second '_'-separated field of the name. */
  lemma MediaNameCarriesTimestamp(isImage: bool, millis: nat, date: string)
    ensures var parts := Split(MediaDisplayName(isImage, millis, date), '_');
      |parts| >= 3
      && parts[0] == (if isImage then "photo" else "video")
      && parts[1] == Digits(millis)
      && ParseNat(parts[1]) == millis
  {
    var kind := if isImage then "photo" else "video";
    var rest := date + (if isImage then ".jpg" else ".mp4");
    var d := Digits(millis);
    assert MediaDisplayName(isImage, millis, date) == kind + ['_'] + (d + ['_'] + rest);
    DigitsHaveNoSeparator(d, '_');
    SplitTwoFields(kind, d, rest, '_');
    ParseDigits(millis);
  }

  /**
   * A name tells one capture from another: two names are equal exactly when
   * kind, timestamp and date are. Two captures in the same millisecond with
   * the same date collide.
   */
  lemma MediaNameIdentifiesCapture(k1: bool, m1: nat, d1: string, k2: bool, m2: nat, d2: string)
    ensures MediaDisplayName(k1, m1, d1) == MediaDisplayName(k2, m2, d2)
        <==> k1 == k2 && m1 == m2 && d1 == d2
  {
    var n1 := MediaDisplayName(k1, m1, d1);
    var n2 := MediaDisplayName(k2, m2, d2);
    if n1 == n2 {
      MediaNameCarriesTimestamp(k1, m1, d1);
      MediaNameCarriesTimestamp(k2, m2, d2);
      assert k1 == k2;
      assert m1 == m2;
      var prefix := (if k1 then "photo" else "video") + "_" + Digits(m1) + "_";
      var ext := if k1 then ".jpg" else ".mp4";
      assert n1 == prefix + d1 + ext;
      assert n2 == prefix + d2 + ext;
      assert d1 == n1[|prefix|..|n1| - 4];
      assert d2 == n2[|prefix|..|n2| - 4];
    }
  }

  // ---------------------------------------------------------------------
  // copyStream

  newtype byte = x: int | 0 <= x < 256

  /** The 16 KB copy buffer. */
  const BufferSize: nat := 16 * 1024

  /** A call the copy makes on the OutputStream. */
  datatype OutputCall = Write(bytes: seq<byte>) | Flush

  /** Kotlin `Int` arithmetic: the value wrapped to 32-bit two's complement. */
  function ToInt32(x: int): (r: int)
    ensures -0x8000_0000 <= r < 0x8000_0000
    ensures (r - x) % 0x1_0000_0000 == 0
  {
    (x + 0x8000_0000) % 0x1_0000_0000 - 0x8000_0000
  }

  lemma ToInt32Small(x: int)
    requires -0x8000_0000 <= x < 0x8000_0000
    ensures ToInt32(x) == x
  {
  }

  lemma ToInt32Add(x: int, y: int)
    ensures ToInt32(ToInt32(x) + y) == ToInt32(x + y)
  {
    var k := (x + 0x8000_0000) / 0x1_0000_0000;
    assert ToInt32(x) == x - k * 0x1_0000_0000;
    ModShift(x + y + 0x8000_0000, k);
  }

  lemma ModShift(a: int, k: int)
    ensures (a - k * 0x1_0000_0000) % 0x1_0000_0000 == a % 0x1_0000_0000
  {
  }

  /** All the bytes, in order. */
  function Concat(chunks: seq<seq<byte>>): seq<byte> {
    if |chunks| == 0 then [] else Concat(chunks[..|chunks| - 1]) + chunks[|chunks| - 1]
  }

  /** What an OutputStream holds after a sequence of calls. */
  function Written(calls: seq<OutputCall>): seq<byte> {
    if |calls| == 0 then []
    else Written(calls[..|calls| - 1])
         + (match calls[|calls| - 1] case Write(b) => b case Flush => [])
  }

  predicate ReadsFitBuffer(chunks: seq<seq<byte>>) {
    forall i :: 0 <= i < |chunks| ==> |chunks[i]| <= BufferSize
  }

  /**
   * copyStream. `chunks` lists what successive `input.read(buffer)` calls put
   * in the buffer before the call that returns -1; InputStream never returns
   * more than the buffer holds. Each read overwrites only the front of the
   * buffer, and only that front is written out. Returns the calls made on the
   * output stream and the logged `totalBytes`, a Kotlin Int.
   */
  method CopyStream(chunks: seq<seq<byte>>) returns (calls: seq<OutputCall>, totalBytes: int)
    requires ReadsFitBuffer(chunks)
    ensures |calls| == |chunks| + 1 && calls[|chunks|] == Flush
    ensures forall i :: 0 <= i < |chunks| && i < |calls| ==> calls[i] == Write(chunks[i])
    ensures multiset(calls)[Flush] == 1
    ensures Written(calls) == Concat(chunks)
    ensures totalBytes == ToInt32(|Concat(chunks)|)
  {
    var buffer: seq<byte> := seq(BufferSize, _ => 0);
    var total := 0;
    calls := [];
    var i := 0;
    while i < |chunks|
      invariant 0 <= i <= |chunks|
      invariant |buffer| == BufferSize
      invariant |calls| == i
      invariant forall j :: 0 <= j < i ==> calls[j] == Write(chunks[j])
      invariant Written(calls) == Concat(chunks[..i])
      invariant total == ToInt32(|Concat(chunks[..i])|)
    {
      var chunk := chunks[i];
      buffer := chunk + buffer[|chunk|..];
      var bytesRead := |chunk|;
      assert buffer[..bytesRead] == chunk;
      calls := calls + [Write(buffer[..bytesRead])];
      ToInt32Add(|Concat(chunks[..i])|, bytesRead);
      total := ToInt32(total + bytesRead);
      assert chunks[..i + 1][..i] == chunks[..i];
      assert calls[..i] == calls[..|calls| - 1];
      i := i + 1;
    }
    assert chunks[..i] == chunks;
    assert Flush !in calls;
    calls := calls + [Flush];
    assert calls[..|calls| - 1] == calls[..|chunks|];
    totalBytes := total;
  }

  /** For copies under 2 GiB the logged total is the exact byte count. */
  lemma CopyStreamTotalExact(chunks: seq<seq<byte>>, calls: seq<OutputCall>, totalBytes: int)
    requires totalBytes == ToInt32(|Concat(chunks)|)
    requires |Concat(chunks)| < 0x8000_0000
    ensures totalBytes == |Concat(chunks)|
  {
    ToInt32Small(|Concat(chunks)|);
  }

  // ---------------------------------------------------------------------
  // getOrCreateDefaultFolder

  /** A child document of a tree: its display name and whether it is a directory. */
  datatype DocFile = DocFile(name: string, isDirectory: bool)

  /** DocumentFile.findFile: the first child with that display name. */
  function FindFile(children: seq<DocFile>, name: string): (r: Option<nat>)
    ensures r.Some? ==> r.value < |children| && children[r.value].name == name
    ensures r.Some? ==> forall j :: 0 <= j < r.value ==> children[j].name != name
    ensures r.None? ==> forall j :: 0 <= j < |children| ==> children[j].name != name
  {
    if |children| == 0 then None
    else if children[0].name == name then Some(0)
    else match FindFile(children[1..], name)
      case None => None
      case Some(i) => Some(i + 1)
  }

  /** The returned folder, the tree's children afterwards, and how often createDirectory ran. */
  datatype FolderResult = FolderResult(folder: Option<DocFile>, children: Option<seq<DocFile>>, createCalls: nat)

  /**
   * getOrCreateDefaultFolder. `root` is DocumentFile.fromTreeUri (None when it
   * returns null); `createSucceeds` says whether createDirectory returns a
   * document rather than null.
   */
  function GetOrCreateDefaultFolder(root: Option<seq<DocFile>>, folderName: string, createSucceeds: bool)
    : (r: FolderResult)
    ensures root.None? ==> r == FolderResult(None, None, 0)
    ensures r.createCalls <= 1
    ensures r.folder.Some? ==> r.folder.value == DocFile(folderName, true)
    ensures root.Some? && r.createCalls == 0 ==>
              r.children == root && r.folder.Some?
              && (var i := FindFile(root.value, folderName); i.Some? && root.value[i.value].isDirectory)
    ensures root.Some? && r.createCalls == 1 ==>
              (var i := FindFile(root.value, folderName); i.None? || !root.value[i.value].isDirectory)
              && r.children == (if createSucceeds then Some(root.value + [DocFile(folderName, true)]) else root)
              && (r.folder.Some? <==> createSucceeds)
  {
    match root
    case None => FolderResult(None, None, 0)
    case Some(children) =>
      var found := FindFile(children, folderName);
      if found.Some? && children[found.value].isDirectory then
        FolderResult(Some(children[found.value]), root, 0)
      else if createSucceeds then
        var created := DocFile(folderName, true);
        FolderResult(Some(created), Some(children + [created]), 1)
      else
        FolderResult(None, root, 1)
  }

  /**
   * Once the folder exists, asking again creates nothing, provided the first
   * entry of that name in the tree, if any, is a directory.
   */
  lemma GetOrCreateSettles(children: seq<DocFile>, folderName: string, ok1: bool, ok2: bool)
    requires var i := FindFile(children, folderName); i.None? || children[i.value].isDirectory
    ensures var first := GetOrCreateDefaultFolder(Some(children), folderName, ok1);
      first.folder.Some? ==>
        var second := GetOrCreateDefaultFolder(first.children, folderName, ok2);
        second.createCalls == 0 && second.children == first.children && second.folder == first.folder
  {
    var first := GetOrCreateDefaultFolder(Some(children), folderName, ok1);
    if first.folder.Some? && first.createCalls == 1 {
      var grown := children + [DocFile(folderName, true)];
      FindFileAppend(children, DocFile(folderName, true), folderName);
      var i := FindFile(grown, folderName);
      assert i.Some?;
      assert grown[i.value].isDirectory;
    }
  }

  lemma FindFileAppend(children: seq<DocFile>, extra: DocFile, name: string)
    requires extra.name == name
    ensures FindFile(children + [extra], name).Some?
  {
    var grown := children + [extra];
    assert grown[|children|].name == name;
  }
}

=== FILE: optional.dfy ===
/** Kotlin's nullable values (`T?`), as an Option. */
module Optional {

  datatype Option<+T> = None | Some(value: T) {

    /** The elvis operator `x ?: default`. */
    function GetOr(default: T): (r: T)
      ensures Some? ==> r == value
      ensures None? ==> r == default
    {
      match this
      case Some(v) => v
      case None => default
    }
  }
}

=== FILE: settings_dialog.dfy ===
/**
 * SettingsDialogFragment: the dialog that edits "recordAudio",
 * "storageChoice" and "sd_tree_uri" in the shared preferences, and the
 * folder picker it falls back to on older Android versions. The dialog is a
 * pure function from (prefs, widget values, platform facts) to new prefs and
 * the effects it asks of the platform.
 */
module SettingsDialog {
  import opened Optional
  import opened Android
  import opened AppPrefs
  import CameraService

  /** The widgets: the audio checkbox and the storage spinner (0 internal, 1 external). */
  datatype DialogView = DialogView(recordAudioChecked: bool, storagePosition: int)

  datatype DialogEffect =
    | Notify(recordAudio: bool, storageOption: string)  // listener?.onSettingsSaved
    | Dismiss
    | LaunchFolderPicker                                 // ACTION_OPEN_DOCUMENT_TREE
    | TakePersistablePermission(uri: string)

  datatype DialogResult = DialogResult(prefs: Prefs, effects: seq<DialogEffect>)

  const PositionInternal: int := 0
  const PositionExternal: int := 1

  /** The spinner position shown for a stored choice. */
  function PositionFor(storageChoice: string): (pos: int)
    ensures pos == PositionExternal <==> storageChoice == ExternalStorage
    ensures pos == PositionInternal <==> storageChoice != ExternalStorage
  {
    if storageChoice == ExternalStorage then PositionExternal else PositionInternal
  }

  /** The choice saved for a spinner position. */
  function ChoiceFor(pos: int): (choice: string)
    ensures choice == ExternalStorage <==> pos == PositionExternal
    ensures choice == InternalStorage <==> pos != PositionExternal
  {
    if pos == PositionExternal then ExternalStorage else InternalStorage
  }

  /** onCreateView: the widgets start from the stored settings and their defaults. */
  function LoadView(p: Prefs): (v: DialogView)
    ensures v.recordAudioChecked == RecordAudioSetting(p)
    ensures v.storagePosition == PositionExternal <==> p.storageChoice == Some(ExternalStorage)
    ensures v.storagePosition in {PositionInternal, PositionExternal}
  {
    DialogView(RecordAudioSetting(p), PositionFor(StorageChoiceSetting(p)))
  }

  /** `listener?.onSettingsSaved(...)`: nothing when no listener is attached. */
  function NotifyIf(hasListener: bool, recordAudio: bool, choice: string): (r: seq<DialogEffect>)
    ensures hasListener ==> r == [Notify(recordAudio, choice)]
    ensures !hasListener ==> r == []
  {
    if hasListener then [Notify(recordAudio, choice)] else []
  }

  /**
   * btnSave: both settings are written first. Internal storage forgets the
   * SD tree URI and closes; external storage closes at once on Android 10 and
   * later; below that it closes only when a non-empty tree URI is already
   * stored, and otherwise opens the folder picker and stays open.
   */
  function OnSave(p: Prefs, v: DialogView, sdkInt: int, hasListener: bool): (r: DialogResult)
    ensures r.prefs.recordAudio == Some(v.recordAudioChecked)
    ensures r.prefs.storageChoice == Some(ChoiceFor(v.storagePosition))
    ensures r.prefs.sdTreeUri == (if ChoiceFor(v.storagePosition) == InternalStorage then None else p.sdTreeUri)
    ensures LaunchFolderPicker in r.effects <==>
              ChoiceFor(v.storagePosition) == ExternalStorage && sdkInt < VersionQ
              && (p.sdTreeUri.None? || p.sdTreeUri.value == "")
    ensures LaunchFolderPicker in r.effects ==> r.effects == [LaunchFolderPicker]
    ensures LaunchFolderPicker !in r.effects ==>
              r.effects == NotifyIf(hasListener, v.recordAudioChecked, ChoiceFor(v.storagePosition)) + [Dismiss]
  {
    var choice := ChoiceFor(v.storagePosition);
    var saved := p.(recordAudio := Some(v.recordAudioChecked), storageChoice := Some(choice));
    var close := NotifyIf(hasListener, v.recordAudioChecked, choice) + [Dismiss];
    if choice == InternalStorage then
      DialogResult(saved.(sdTreeUri := None), close)
    else if sdkInt >= VersionQ then
      DialogResult(saved, close)
    else if saved.sdTreeUri.None? || saved.sdTreeUri.value == "" then
      DialogResult(saved, [LaunchFolderPicker])
    else
      DialogResult(saved, close)
  }

  /**
   * The folder picker's result: only RESULT_OK with a URI counts. The URI is
   * kept as it is (both branches of the "document/" test choose it), a
   * persistable grant is taken, it is stored, and the dialog reports
   * "external" and closes.
   */
  function OnFolderPicked(p: Prefs, checked: bool, resultCode: int, uri: Option<string>, hasListener: bool)
    : (r: DialogResult)
    ensures resultCode != ResultOk || uri.None? ==> r == DialogResult(p, [])
    ensures resultCode == ResultOk && uri.Some? ==>
              r.prefs == p.(sdTreeUri := uri)
              && r.effects == [TakePersistablePermission(uri.value)] + NotifyIf(hasListener, checked, ExternalStorage) + [Dismiss]
  {
    if resultCode == ResultOk && uri.Some? then
      var finalUri := FinalUri(uri.value);
      DialogResult(p.(sdTreeUri := Some(finalUri)),
                   [TakePersistablePermission(finalUri)] + NotifyIf(hasListener, checked, ExternalStorage) + [Dismiss])
    else
      DialogResult(p, [])
  }

  /** The "document/" test whose two branches return the same URI. */
  function FinalUri(uri: string): (r: string)
    ensures r == uri
  {
    if Contains(uri, "document/") then uri else uri
  }

  /** Kotlin's `String.contains`. */
  predicate Contains(s: string, part: string) {
    exists i :: 0 <= i <= |s| - |part| && OccursAt(s, part, i)
  }

  predicate OccursAt(s: string, part: string, i: int)
    requires 0 <= i <= |s| - |part|
  {
    s[i..i + |part|] == part
  }

  // ---------------------------------------------------------------------
  // Properties

  /** Saving a view and reopening the dialog shows the same view. */
  lemma SaveThenLoad(p: Prefs, v: DialogView, sdkInt: int, hasListener: bool)
    requires v.storagePosition in {PositionInternal, PositionExternal}
    ensures LoadView(OnSave(p, v, sdkInt, hasListener).prefs) == v
  {
  }

  /** Saving what the dialog loaded changes no setting the app reads. */
  lemma LoadThenSaveKeepsSettings(p: Prefs, sdkInt: int, hasListener: bool)
    requires p.storageChoice.None? || p.storageChoice.value in {InternalStorage, ExternalStorage}
    ensures var q := OnSave(p, LoadView(p), sdkInt, hasListener).prefs;
      RecordAudioSetting(q) == RecordAudioSetting(p) && StorageChoiceSetting(q) == StorageChoiceSetting(p)
  {
  }

  /**
   * Whenever the dialog closes on "external" below Android 10, a non-empty
   * SD tree URI is stored: the save path checks for it and the picker path
   * stores one.
   */
  lemma ClosedExternalHasTreeUri(p: Prefs, v: DialogView, sdkInt: int, hasListener: bool)
    requires sdkInt < VersionQ && ChoiceFor(v.storagePosition) == ExternalStorage
    ensures var r := OnSave(p, v, sdkInt, hasListener);
      Dismiss in r.effects <==> r.prefs.sdTreeUri.Some? && r.prefs.sdTreeUri.value != ""
  {
  }

  /** The whole older-Android flow: save asks for a folder, the pick stores it and closes. */
  lemma ExternalFlowBelowQ(p: Prefs, checked: bool, sdkInt: int, uri: string, hasListener: bool)
    requires sdkInt < VersionQ && p.sdTreeUri.None?
    ensures var saved := OnSave(p, DialogView(checked, PositionExternal), sdkInt, hasListener);
      var picked := OnFolderPicked(saved.prefs, checked, ResultOk, Some(uri), hasListener);
      && saved.effects == [LaunchFolderPicker]
      && picked.prefs == Prefs(Some(checked), Some(ExternalStorage), Some(uri))
      && Dismiss in picked.effects
      && (hasListener ==> Notify(checked, ExternalStorage) in picked.effects)
  {
    var saved := OnSave(p, DialogView(checked, PositionExternal), sdkInt, hasListener);
    var picked := OnFolderPicked(saved.prefs, checked, ResultOk, Some(uri), hasListener);
    assert picked.effects[|picked.effects| - 1] == Dismiss;
    if hasListener {
      assert picked.effects[1] == Notify(checked, ExternalStorage);
    }
  }

  /** A cancelled picker leaves everything as the save left it. */
  lemma CancelledPickerChangesNothing(p: Prefs, checked: bool, resultCode: int, hasListener: bool)
    requires resultCode != ResultOk
    ensures OnFolderPicked(p, checked, resultCode, None, hasListener) == DialogResult(p, [])
    ensures forall u: Option<string> ::
              OnFolderPicked(p, checked, resultCode, u, hasListener).prefs == p
  {
  }

  /**
   * What the dialog saves is what the service records with: the next chunk
   * started under the saved prefs uses the checkbox for audio and, on
   * Android 10 and later, the "-Ext" folder exactly when "external" was picked.
   */
  lemma SavedSettingsReachService(p: Prefs, v: DialogView, sdkInt: int, hasListener: bool,
                                  s: CameraService.ServiceState, millis: nat, date: string)
    requires sdkInt >= VersionQ && s.captureRotation.Some?
    ensures var env := CameraService.ChunkEnv(OnSave(p, v, sdkInt, hasListener).prefs, sdkInt, millis, date, false);
      var effect := CameraService.StartRecordingVideo(s, env).effects[0];
      && effect.StartChunk?
      && effect.withAudio == v.recordAudioChecked
      && (effect.values[RelativePathColumn] == CameraService.ChunkPathExternal
          <==> v.storagePosition == PositionExternal)
  {
  }
}
